=== FILE: README.md ===
# Phonebook service: a Dafny model of its decisions

The phonebook backend is an Express application over a MongoDB
collection of contacts. This project models the parts of it that decide
something, as pure Dafny functions, and proves what they promise:

- the contact schema (`models/contact.js`), which covers:
  - the `name` setter `capitalizeWords`: upper-case the word starts,
    collapse whitespace runs, trim;
  - the validators on `name` and `number`;
  - the custom phone-number message;
  - the `toJSON` transform that turns `_id` into `id`.
- `getFormattedTimestamp` (`time.js`). The values it reads from `Date`
  and `Intl` are lifted into a `Clock` parameter.
- the request handlers of `index.js`. Each handler is modelled as a
  function of the request and of how the store call settled:
  - the error middleware;
  - `GET /api/info`;
  - `GET /api/persons`;
  - `GET /api/persons/:id`;
  - `DELETE /api/persons/:id`;
  - `POST /api/persons`.

Modules follow the program:

| module | file | what it holds |
|---|---|---|
| `Text` | `text.dfy` | JavaScript's `\s`, `\w` and `\d`, `trim`, `split`, `padStart` and UTF-16 `length` |
| `Decimal` | `decimal.dfy` | `String(n)` and reading digits back |
| `Capitalize` | `capitalize.dfy` | `capitalizeWords`, related to a word-based reference definition |
| `Contact` | `contact.dfy` | the schema's validators and `toJSON` |
| `Timestamp` | `timestamp.dfy` | the timestamp text and a reader that recovers every field from it |
| `Routes` | `routes.dfy` | the handlers |
| `Optional` | `optional.dfy` | `Option` |

Most text-producing operations have a reader as their partner, with a
round-trip lemma. The timestamp, the offset, the delete confirmation and
the info page are all read back this way.

## Model

| member | source | states |
|---|---|---|
| `Capitalize.UpperWordStartsFrom` | models/contact.js:7 | The length is kept. A character is upper-cased exactly when `\b\w` matches at it, that is, when it is a word character not preceded by one; every other character is unchanged. |
| `Capitalize.CollapseSpaces` | models/contact.js:8 | After `/\s+/g` is replaced by a space, the only whitespace left is the plain space and no two whitespace characters are adjacent. |
| `Capitalize.CapitalizeWordsIsJoinOfWords` | models/contact.js:5-10 | The three passes equal a reference definition: the input's whitespace-separated words, each with its word starts upper-cased, joined by single spaces. |
| `Capitalize.CapitalizeWordsNormalized` | models/contact.js:5-10 | The stored name has no whitespace at either end, and its only whitespace is single spaces between words. |
| `Capitalize.CapitalizeWordsWords` | models/contact.js:5-10 | The words of the stored name are the words of the input, in order, with exactly the word-start `\w` characters upper-cased. |
| `Capitalize.UpperIdempotent` | models/contact.js:7 | Upper-casing word starts a second time changes nothing. |
| `Capitalize.CapitalizeWordsIdempotent` | models/contact.js:5-10 | Applying the setter to its own output changes nothing. |
| `Text.Trim` | models/contact.js:9 | `trim` leaves no whitespace at either end, and its result is empty exactly when the input is all whitespace. |
| `Text.TrimExact` | models/contact.js:9 | `trim` removes exactly the surrounding whitespace: put any whitespace around a trimmed string, and trimming gives that string back. |
| `Contact.CheckName` | models/contact.js:14-19 | The name validators accept a value exactly when it is present, its UTF-16 length is 3 to 20, and every character is an ASCII letter or `\s`. |
| `Contact.NameAcceptedIff` | models/contact.js:14-20 | A raw name is accepted exactly when its normalized form has 3 to 20 characters, each an ASCII letter or a space. |
| `Contact.PaddedShortNameRejected` | models/contact.js:16-20 | The raw name `"  ab  "` is stored as `"Ab"` and rejected by `minLength` 3: normalization runs before the length check. |
| `Contact.AcceptedNameIsTitleCase` | models/contact.js:4-20 | Every accepted name is title case: each word is ASCII letters and starts with an upper-case letter. |
| `Contact.NumberPatternLength` | models/contact.js:24-30 | Every string the number pattern accepts is BMP text of 9 to 13 characters, so the length validators (8 to 13) never reject it. |
| `Contact.CheckNumber` | models/contact.js:22-34 | A number is accepted exactly when it matches `^\d{2,3}-\d{6,9}$`. A missing or empty value fails `required`. A present value within the length bounds that does not match is rejected by the custom validator, whose message is the value followed by `" is not a valid phone number!"`. |
| `Contact.MatchNumber` | models/contact.js:28-31 | A single left-to-right scan decides the regular expression: it returns true exactly when the pattern holds. |
| `Contact.Validate` | models/contact.js:12-35 | There is at most one error per path, keyed `name` or `number`. A path has an error exactly when its validators reject it, and the error recorded is the rule that failed, custom message included. So there are no errors exactly when both paths pass. |
| `Contact.ValidateAcceptsIff` | models/contact.js:14-34 | A document with a raw name and a number validates exactly when the normalized name has 3 to 20 letters or spaces and the number matches the pattern. |
| `Contact.LongNumberRejected` | models/contact.js:25-32 | `39-4455323523` is 13 characters, so the length validators let it through. The pattern rejects it, and the message repeats the value. |
| `Contact.ShortestNumberAccepted` | models/contact.js:24-30 | `39-445532`, with two digits, a hyphen and six digits, is accepted. |
| `Contact.ToJson` | models/contact.js:37-43 | The keys are the document's, minus `_id` and `__v`, plus `id`. `id` is the text of `_id`, replacing any stored `id`. Every other path is kept unchanged. |
| `Decimal.NatToString` | time.js:5-9 | `String(n)` is the shortest digit string that denotes `n`. It has no leading zero, and its length is 1 exactly below 10 and 2 exactly from 10 to 99. |
| `Decimal.IntToStringRoundTrip` | time.js:6 | Reading `String(year)` back gives the year, negative years included. |
| `Decimal.TwoDigitsIsPadStart` | time.js:5 | The padded field is `String(n).padStart(2, '0')`. |
| `Decimal.TwoDigitsValue` | time.js:5-9 | The padded field still denotes `n`. |
| `Text.PadStart` | time.js:5 | `padStart` keeps the string as the suffix, and fills only the characters before it, up to the width. |
| `Text.Split` | time.js:15 | `split(',')` gives at least one part. No part holds a comma, and joining the parts with commas gives the input back. |
| `Timestamp.OffsetText` | time.js:10-13 | The sign is `+` exactly when the negated `getTimezoneOffset()` is at least 0, and `-` otherwise. After the sign come only digits, and the offset holds no space. Any offset below 100 hours is exactly `±HHMM`, five characters. |
| `Timestamp.OffsetDigits` | time.js:12-13 | Hours times 60 plus minutes is the size of the offset, and the minutes are below 60. A zero offset is written `+0000`. |
| `Timestamp.OffsetRoundTrip` | time.js:10-13 | Reading the offset text gives back the minutes east of UTC, which is the negated `getTimezoneOffset()`. |
| `Timestamp.TzLabel` | time.js:14-16 | The label has no comma and no whitespace at its ends. It is empty when the long name has no comma. |
| `Timestamp.TzLabelIsSplit` | time.js:15-16 | The label is the second `split(',')` part, trimmed, when there are at least two parts, and empty otherwise. |
| `Timestamp.TzLabelOfParts` | time.js:15-16 | For a long name `date,zone[,rest]`, the label is `zone` trimmed. Anything from a second comma on is dropped. |
| `Timestamp.TimeRoundTrip` | time.js:7-9 | `HH:MM:SS` reads back as the hours, minutes and seconds. |
| `Timestamp.TokenizeUntokenize` | time.js:19 | Cutting the template at its first seven spaces gives back its pieces, provided none of the first seven pieces holds a space. |
| `Timestamp.RoundTripBehind` | time.js:10-19 | Reading the timestamp back gives every field it was built from, for any `getTimezoneOffset()` value and any zone label. |
| `Timestamp.FormattedTimestampRoundTrip` | time.js:1-20 | The timestamp is a fixed-order concatenation that can be read back into weekday, month, day, year, time, offset east of UTC and zone label. |
| `Routes.ErrorHandler` | index.js:23-30 | The middleware answers exactly when the error is a `CastError`, always with 400 `malformatted id`. Any other error is passed to `next` unchanged. |
| `Routes.ErrorHandlerIgnoresMessage` | index.js:24-29 | The decision depends on the error's name only, never on its message. |
| `Routes.ListPersons` | index.js:74-85 | The listing is always answered. A successful `find` gets 200 with every document, in order, sent through `toJSON`: `id` from `_id`, no `_id` or `__v`. A rejected `find` gets 500 `An error occurred while fetching the data`, and only then. |
| `Routes.GetById` | index.js:108-120 | A found document is answered with 200 and the document as `toJSON` shapes it: no `_id` or `__v`, `id` from `_id`, and every other path kept. `null` is answered 404 `Contact not found` and nothing else is. A rejected lookup goes to `next`. Error statuses carry error bodies and only they do. |
| `Routes.DeleteById` | index.js:122-135 | `null` is answered with 404 and nothing else is. A deletion is answered with 200 and a message from which the requested id reads back. A rejected call goes to `next`. |
| `Routes.DeletedIdOfMessage` | index.js:130-132 | The confirmation names exactly the requested id. |
| `Routes.DeletedMessagesDiffer` | index.js:131 | Different ids are never confirmed with the same text. |
| `Routes.Info` | index.js:87-106 | An empty array gets no answer at all, and every non-empty array is answered. The answer is 200 with a page that reads back as the count (written without leading zeros), the stored timestamp, and a plural noun exactly when the count exceeds one. |
| `Routes.ReadInfoPage` | index.js:89-98 | The count and the timestamp can be read back from the page for every count. The noun is `person` for one and `persons` otherwise. |
| `Routes.ZeroPaddedCountRejected` | index.js:91 | The page reader takes the count only as `String(n)` writes it: a count with a leading zero, such as `03`, does not read back. |
| `Routes.InfoAsDeployed` | index.js:44-99 | With the three seed entries, the page says 3 persons and shows the time the module was loaded. |
| `Routes.Post` | index.js:137-181 | The answer is 400 `Both name and number are required` exactly when a field is falsy. Past the guard, only a valid, saved pair of strings is answered: 200 with the object id as `id`, the normalized name and the number. Nothing is forwarded. |
| `Routes.PostGuardFirst` | index.js:142-146 | When the guard fires, the answer ignores the random draw, the array and the store. |
| `Routes.PostAcceptsValid` | index.js:161-169 | Every pair of strings that passes validation is answered once the store saves it. |
| `Routes.RandomIdReadsBack` | index.js:157-159 | The generated id is a number below one million, a hyphen, and the length of the array. |
| `Routes.CreatedContact` | index.js:161-168 | The saved contact as sent back has exactly three keys: `id` (the object id, not the generated id), `name` and `number`. |

## Left out

- Express plumbing: routing, `express.json`, CORS, morgan logging, static files, `console.error`. Each handler is a function from its inputs to the answer.
- Mongoose and MongoDB. `findById`, `findByIdAndDelete` and `save` are not executed; how each call settles is an input (`Lookup`, `Saving`).
- `Date`, `Intl.DateTimeFormat` and `Math.random` are parameters (`Clock`, and a `draw` in `[0, 1)`). Locale data is not modelled.
- `GET /` sends a file and decides nothing.
- The `try`/`catch` blocks answering 500 in `/api/info`, `GET /` and POST: none of the modelled steps in them throws. The one `catch` that handles a store failure, in `GET /api/persons`, is modelled.
- The database connection and the server start, which are plain I/O.
- The PUT route: the application has none.
- Error routing end to end. `errorHandler` is registered before the routes, so an error a route passes to `next` never reaches it in the running server. The model proves what the middleware decides for any error it receives, and leaves the errors that routes forward as `Forward`.
- What happens after `NoResponse`. The model uses it for two different things, and no status is invented for either:
  - In `/api/info` with an empty array, neither branch answers. The request hangs, and the server keeps running.
  - In POST, a failed validation or save rejects the promise `save()` returns, and that promise has no rejection handler. The client gets no answer. Under Node 15 or later with default settings, the unhandled rejection also ends the process. Process termination is not modelled.
- Routes.Post: a truthy `name` or `number` that is not a string gets `NoResponse`, and this is exact in all but one case.
  - For `name`, mongoose runs the setter before any cast. `replace` throws on a non-string (models/contact.js:6-7), so the save rejects.
  - For `number`, mongoose's string cast turns numbers and booleans into text the pattern rejects.
  - The one divergence is an object `number` with a string `_id`: mongoose casts it to that string. `{name: "Ada Lovelace", number: {_id: "39-445532"}}` is saved and answered 200, where `Routes.Post` gives `NoResponse`.
- Routes.Start: its contract states only that the array holds three entries. The timestamp it stores is stated by `Routes.InfoAsDeployed`.
- Timestamp.FormattedTimestampRoundTrip: it requires the locale's weekday and month names to contain no space, which holds for the `en-US` short names.
- Timestamp.TzLabel: the label is the second comma-separated part of the long name, not everything after the first comma. Anything from a second comma on is dropped, as `split(',')[1]` does.
- JavaScript `\s` is modelled with its full set (Unicode space separators, line terminators, U+FEFF). `\w` has no `u` flag, so it is ASCII `[A-Za-z0-9_]`, and `toUpperCase` is applied only to `\w` characters, so only `a`..`z` change.
- Lengths for `minLength`/`maxLength` are counted in UTF-16 code units; strings are sequences of code points, and astral characters count two.

=== FILE: capitalize.dfy ===
/** The `name` setter of the contact schema, `capitalizeWords`
    (models/contact.js): upper-case every `\w` character that starts a
    word (`/\b\w/g`), collapse every whitespace run into one space
    (`/\s+/g`), then `trim`.

    The three passes are related to a reference definition: split the
    input into its whitespace-separated words, upper-case the word starts
    of each word, and join the words with single spaces. */
module Capitalize {
  import opened Text

  /** `\b\w` matches at `i`: a word character whose left neighbour is not
      one. `afterWord` stands for the character before `s[0]`. */
  predicate AtWordStart(s: string, i: nat, afterWord: bool)
    requires i < |s|
  {
    IsWordChar(s[i]) && !(if i == 0 then afterWord else IsWordChar(s[i - 1]))
  }

  /** The first pass, one character at a time, carrying whether the
      previous character was a word character. */
  function UpperWordStartsFrom(s: string, afterWord: bool): (r: string)
    ensures |r| == |s|
    ensures forall i :: 0 <= i < |s| ==>
      r[i] == if AtWordStart(s, i, afterWord) then ToUpper(s[i]) else s[i]
  {
    if s == [] then []
    else
      var rest := UpperWordStartsFrom(s[1..], IsWordChar(s[0]));
      var r := [if IsWordChar(s[0]) && !afterWord then ToUpper(s[0]) else s[0]] + rest;
      assert forall i :: 1 <= i < |s| ==> r[i] == rest[i - 1] && AtWordStart(s, i, afterWord) == AtWordStart(s[1..], i - 1, IsWordChar(s[0]));
      r
  }

  /** `str.replace(/\b\w/g, (char) => char.toUpperCase())`. */
  function UpperWordStarts(s: string): string {
    UpperWordStartsFrom(s, false)
  }

  /** The second pass, one character at a time: the first whitespace
      character of a run becomes a space and the rest of the run is
      dropped. `inRun` says the previous character was whitespace. */
  function CollapseFrom(s: string, inRun: bool): string {
    if s == [] then []
    else if IsWs(s[0]) then (if inRun then "" else " ") + CollapseFrom(s[1..], true)
    else [s[0]] + CollapseFrom(s[1..], false)
  }

  /** `str.replace(/\s+/g, " ")`: every maximal whitespace run becomes a
      single space. */
  function CollapseWs(s: string): string {
    CollapseFrom(s, false)
  }

  /** The only whitespace is the plain space, and no two whitespace
      characters are adjacent. */
  predicate SingleSpaced(s: string) {
    && (forall i :: 0 <= i < |s| && IsWs(s[i]) ==> s[i] == ' ')
    && (forall i :: 0 <= i < |s| - 1 ==> !IsWs(s[i]) || !IsWs(s[i + 1]))
  }

  /** After the collapse the string is single-spaced, and inside a run
      nothing more is emitted before the next non-whitespace character. */
  lemma {:induction false} CollapseSpaces(s: string, inRun: bool)
    ensures SingleSpaced(CollapseFrom(s, inRun))
    ensures inRun ==> CollapseFrom(s, inRun) == [] || !IsWs(CollapseFrom(s, inRun)[0])
    decreases |s|
  {
    if s != [] {
      var inRun' := IsWs(s[0]);
      var rest := CollapseFrom(s[1..], inRun');
      CollapseSpaces(s[1..], inRun');
      if !inRun' {
        SpacesAfter([s[0]], rest);
      } else if !inRun {
        SpacesAfter(" ", rest);
      }
    }
  }

  /** One character put in front of a single-spaced string keeps it
      single-spaced, unless it makes two whitespace characters adjacent. */
  lemma SpacesAfter(head: string, rest: string)
    requires |head| == 1 && (IsWs(head[0]) ==> head[0] == ' ')
    requires SingleSpaced(rest)
    requires IsWs(head[0]) ==> rest == [] || !IsWs(rest[0])
    ensures SingleSpaced(head + rest)
  {
    var r := head + rest;
    assert forall i :: 1 <= i < |r| ==> r[i] == rest[i - 1];
  }

  /** `capitalizeWords` as written: the three passes in source order. */
  function CapitalizeWords(s: string): string {
    Trim(CollapseWs(UpperWordStarts(s)))
  }

  // ---------------------------------------------------------------------
  // Reference definition: words and joining

  /** A word: a non-empty run of non-whitespace characters. */
  predicate IsWord(w: string) {
    |w| > 0 && forall i :: 0 <= i < |w| ==> !IsWs(w[i])
  }

  predicate AllWords(ws: seq<string>) {
    forall k :: 0 <= k < |ws| ==> IsWord(ws[k])
  }

  /** Length of the leading run of non-whitespace characters. */
  function WordLen(s: string): (n: nat)
    ensures n <= |s|
    ensures forall i :: 0 <= i < n ==> !IsWs(s[i])
    ensures n == |s| || IsWs(s[n])
  {
    if s == [] || IsWs(s[0]) then 0 else 1 + WordLen(s[1..])
  }

  /** The whitespace-separated words of `s`, in order. */
  function Words(s: string): (ws: seq<string>)
    ensures AllWords(ws)
    decreases |s|
  {
    if s == [] then []
    else if IsWs(s[0]) then Words(s[1..])
    else
      var n := WordLen(s);
      [s[..n]] + Words(s[n..])
  }

  /** The words glued together with single spaces. */
  function Join(ws: seq<string>): string {
    if |ws| == 0 then []
    else if |ws| == 1 then ws[0]
    else ws[0] + " " + Join(ws[1..])
  }

  /** `Join` is `JoinWith` with a single space, the inverse of
      `split(' ')`. */
  lemma {:induction false} JoinIsJoinWith(ws: seq<string>)
    ensures Join(ws) == JoinWith(ws, ' ')
    decreases |ws|
  {
    if |ws| > 1 {
      JoinIsJoinWith(ws[1..]);
    }
  }

  /** The first pass applied word by word. */
  function CapitalizeEach(ws: seq<string>): (cs: seq<string>)
    ensures |cs| == |ws|
    ensures forall k :: 0 <= k < |ws| ==> cs[k] == UpperWordStarts(ws[k])
  {
    if ws == [] then []
    else [UpperWordStarts(ws[0])] + CapitalizeEach(ws[1..])
  }

  /** The shape `capitalizeWords` promises: no whitespace at the ends, and
      inside only single spaces between non-whitespace characters. */
  predicate Normalized(s: string) {
    Trimmed(s) && SingleSpaced(s)
  }

  // ---------------------------------------------------------------------
  // Facts about words and joining

  /** Joining words gives a normalized string. */
  lemma {:induction false} JoinNormalized(ws: seq<string>)
    requires AllWords(ws)
    ensures Normalized(Join(ws))
    ensures |ws| > 0 ==> Join(ws) != [] && Join(ws)[0] == ws[0][0]
  {
    if |ws| <= 1 {
    } else {
      var w := ws[0];
      var j := Join(ws[1..]);
      JoinNormalized(ws[1..]);
      var r := w + " " + j;
      assert r == Join(ws);
      assert j != [] && j[0] == ws[1][0];
      assert forall i :: 0 <= i < |w| ==> r[i] == w[i];
      assert r[|w|] == ' ';
      assert forall i :: |w| < i < |r| ==> r[i] == j[i - |w| - 1];
      assert r[|r| - 1] == j[|j| - 1];
    }
  }

  /** A word followed by nothing or by whitespace is read back as a word. */
  lemma WordsAfterWord(w: string, rest: string)
    requires IsWord(w)
    requires rest == [] || IsWs(rest[0])
    ensures Words(w + rest) == [w] + Words(rest)
  {
    var s := w + rest;
    var n := WordLen(s);
    assert forall i :: 0 <= i < |w| ==> s[i] == w[i];
    assert rest != [] ==> s[|w|] == rest[0];
    assert n == |w|;
    assert s[..n] == w;
    assert s[n..] == rest;
  }

  /** Splitting a join gives the words back. */
  lemma {:induction false} WordsOfJoin(ws: seq<string>)
    requires AllWords(ws)
    ensures Words(Join(ws)) == ws
  {
    if |ws| == 0 {
    } else if |ws| == 1 {
      WordsAfterWord(ws[0], []);
      assert ws[0] + [] == ws[0];
    } else {
      var j := Join(ws[1..]);
      WordsOfJoin(ws[1..]);
      assert ws[0] + " " + j == ws[0] + (" " + j);
      WordsAfterWord(ws[0], " " + j);
      assert (" " + j)[1..] == j;
      assert [ws[0]] + ws[1..] == ws;
    }
  }

  /** Every character of every word is a character of the string. */
  lemma {:induction false} WordCharsFromString(s: string)
    ensures forall k, i :: 0 <= k < |Words(s)| && 0 <= i < |Words(s)[k]| ==> Words(s)[k][i] in s
    decreases |s|
  {
    if s == [] {
    } else if IsWs(s[0]) {
      WordCharsFromString(s[1..]);
      assert forall c :: c in s[1..] ==> c in s;
    } else {
      var n := WordLen(s);
      WordCharsFromString(s[n..]);
      assert forall c :: c in s[n..] ==> c in s;
      assert forall c :: c in s[..n] ==> c in s;
      assert Words(s) == [s[..n]] + Words(s[n..]);
    }
  }

  /** A string has no words exactly when it is all whitespace. */
  lemma {:induction false} WordsEmptyIffAllWs(s: string)
    ensures Words(s) == [] <==> AllWs(s)
    decreases |s|
  {
    if s != [] && IsWs(s[0]) {
      WordsEmptyIffAllWs(s[1..]);
      assert forall i :: 1 <= i < |s| ==> s[i] == s[1..][i - 1];
    }
  }

  /** Leading whitespace does not change the words. */
  lemma {:induction false} WordsAfterTrimStart(s: string)
    ensures Words(TrimStart(s)) == Words(s)
    decreases |s|
  {
    if s != [] && IsWs(s[0]) {
      TrimStartCons(s);
      WordsAfterTrimStart(s[1..]);
    }
  }

  // ---------------------------------------------------------------------
  // The collapse-and-trim passes against the reference

  /** A run without whitespace goes through the collapse untouched. */
  lemma {:induction false} CollapseAfterWord(w: string, x: string)
    requires forall i :: 0 <= i < |w| ==> !IsWs(w[i])
    ensures CollapseWs(w + x) == w + CollapseWs(x)
    decreases |w|
  {
    if w != [] {
      var s := w + x;
      assert s[0] == w[0];
      assert s[1..] == w[1..] + x;
      CollapseAfterWord(w[1..], x);
      assert [w[0]] + (w[1..] + CollapseWs(x)) == w + CollapseWs(x);
    } else {
      assert w + x == x;
    }
  }

  /** Inside a run, the rest of the run is skipped. */
  lemma {:induction false} CollapseInRun(t: string)
    ensures CollapseFrom(t, true) == CollapseWs(TrimStart(t))
    decreases |t|
  {
    if t != [] && IsWs(t[0]) {
      TrimStartCons(t);
      CollapseInRun(t[1..]);
    }
  }

  /** The single space a leading whitespace run collapses to. */
  function Lead(t: string): string {
    if t != [] && IsWs(t[0]) then " " else ""
  }

  /** The single space a trailing whitespace run collapses to, unless the
      whole string was one run. */
  function Tail(t: string): string {
    if Words(t) != [] && IsWs(t[|t| - 1]) then " " else ""
  }

  /** After collapsing, a string is its words joined with single spaces,
      with at most one space before and one after. */
  lemma {:induction false} CollapseShape(t: string)
    ensures CollapseWs(t) == Lead(t) + Join(Words(t)) + Tail(t)
    decreases |t|
  {
    if t == [] {
    } else if IsWs(t[0]) {
      CollapseShape(TrimStart(t));
      CollapseShapeAfterRun(t);
    } else {
      var n := WordLen(t);
      var rest := t[n..];
      CollapseShape(rest);
      CollapseShapeAfterWord(t[..n], rest);
      assert t == t[..n] + rest;
      assert CollapseWs(t) == Lead(t) + Join(Words(t)) + Tail(t);
    }
  }

  /** The step of `CollapseShape` for a string that starts with
      whitespace: the run becomes the leading space. */
  lemma CollapseShapeAfterRun(t: string)
    requires t != [] && IsWs(t[0])
    requires CollapseWs(TrimStart(t)) == Lead(TrimStart(t)) + Join(Words(TrimStart(t))) + Tail(TrimStart(t))
    ensures CollapseWs(t) == Lead(t) + Join(Words(t)) + Tail(t)
  {
    var u := TrimStart(t);
    CollapseInRun(t[1..]);
    TrimStartCons(t);
    WordsAfterTrimStart(t);
    if u != [] {
      assert u[|u| - 1] == t[|t| - 1];
    }
    assert Lead(u) == [] && Lead(t) == " " && Tail(u) == Tail(t);
    assert CollapseWs(t) == " " + CollapseFrom(t[1..], true);
    var j := Join(Words(t));
    assert CollapseWs(u) == [] + j + Tail(t);
    PrependRegroup(" ", j, Tail(t));
  }

  /** The step of `CollapseShape` for a string that starts with a word. */
  lemma CollapseShapeAfterWord(w: string, rest: string)
    requires IsWord(w)
    requires rest == [] || IsWs(rest[0])
    requires CollapseWs(rest) == Lead(rest) + Join(Words(rest)) + Tail(rest)
    ensures CollapseWs(w + rest) == Lead(w + rest) + Join(Words(w + rest)) + Tail(w + rest)
  {
    CollapseAfterWord(w, rest);
    WordsAfterWord(w, rest);
    if rest == [] {
      assert w + rest == w;
    } else if Words(rest) == [] {
      WordsEmptyIffAllWs(rest);
      TrailingRunAfterWord(w, rest);
    } else {
      MoreWordsAfterWord(w, rest);
    }
  }

  lemma TrailingRunAfterWord(w: string, rest: string)
    requires IsWord(w)
    requires rest != [] && AllWs(rest)
    requires Words(w + rest) == [w] + Words(rest)
    requires Words(rest) == []
    requires CollapseWs(rest) == Lead(rest) + Join(Words(rest)) + Tail(rest)
    requires CollapseWs(w + rest) == w + CollapseWs(rest)
    ensures CollapseWs(w + rest) == Lead(w + rest) + Join(Words(w + rest)) + Tail(w + rest)
  {
    var t := w + rest;
    assert t[|t| - 1] == rest[|rest| - 1];
    assert Lead(rest) == " " && Tail(rest) == [];
    assert CollapseWs(rest) == " ";
    assert Words(t) == [w];
    assert Lead(t) == [] && Tail(t) == " ";
  }

  lemma MoreWordsAfterWord(w: string, rest: string)
    requires IsWord(w)
    requires rest != [] && IsWs(rest[0])
    requires Words(w + rest) == [w] + Words(rest)
    requires Words(rest) != []
    requires CollapseWs(rest) == Lead(rest) + Join(Words(rest)) + Tail(rest)
    requires CollapseWs(w + rest) == w + CollapseWs(rest)
    ensures CollapseWs(w + rest) == Lead(w + rest) + Join(Words(w + rest)) + Tail(w + rest)
  {
    var t := w + rest;
    var j := Join(Words(rest));
    assert t[|t| - 1] == rest[|rest| - 1];
    assert Lead(rest) == " " && Lead(t) == [];
    assert Tail(t) == Tail(rest);
    assert ([w] + Words(rest))[1..] == Words(rest);
    assert Join(Words(t)) == w + " " + j;
    Regroup(w, " ", j, Tail(rest));
  }

  /** Regrouping concatenations, proved away from any context: inside
      the callers, with the collapse and word facts in scope, the same
      step does not close. */
  lemma PrependRegroup<T>(a: seq<T>, b: seq<T>, c: seq<T>)
    ensures a + ([] + b + c) == a + b + c
  {
  }

  lemma Regroup<T>(a: seq<T>, b: seq<T>, c: seq<T>, d: seq<T>)
    ensures a + (b + c + d) == [] + (a + b + c) + d
  {
  }

  /** Collapsing and trimming any string gives its words joined by single
      spaces. */
  lemma TrimCollapse(t: string)
    ensures Trim(CollapseWs(t)) == Join(Words(t))
  {
    CollapseShape(t);
    JoinNormalized(Words(t));
    TrimExact(Lead(t), Join(Words(t)), Tail(t));
  }

  // ---------------------------------------------------------------------
  // The upper-casing pass against the reference

  /** A word start in `a + b` is one in `a`, or one in `b` seen after the
      last character of `a`. */
  lemma WordStartsAppend(a: string, b: string, afterWord: bool)
    ensures forall i :: 0 <= i < |a| ==>
      AtWordStart(a + b, i, afterWord) == AtWordStart(a, i, afterWord)
    ensures forall i :: |a| <= i < |a| + |b| ==>
      AtWordStart(a + b, i, afterWord)
        == AtWordStart(b, i - |a|, if a == [] then afterWord else IsWordChar(a[|a| - 1]))
  {
  }

  /** The first pass works on a concatenation piece by piece, the second
      piece seeing the last character of the first. */
  lemma UpperWordStartsAppend(a: string, b: string, afterWord: bool)
    ensures UpperWordStartsFrom(a + b, afterWord)
         == UpperWordStartsFrom(a, afterWord)
          + UpperWordStartsFrom(b, if a == [] then afterWord else IsWordChar(a[|a| - 1]))
  {
    var s := a + b;
    var b' := if a == [] then afterWord else IsWordChar(a[|a| - 1]);
    var r := UpperWordStartsFrom(s, afterWord);
    var r1 := UpperWordStartsFrom(a, afterWord);
    var r2 := UpperWordStartsFrom(b, b');
    WordStartsAppend(a, b, afterWord);
    assert forall i :: 0 <= i < |s| ==> r[i] == (r1 + r2)[i];
  }

  /** Upper-casing keeps every character's class: whitespace stays
      whitespace, word characters stay word characters. */
  lemma UpperKeepsClasses(s: string, afterWord: bool)
    ensures forall i :: 0 <= i < |s| ==>
      var c := UpperWordStartsFrom(s, afterWord)[i];
      IsWs(c) == IsWs(s[i]) && IsWordChar(c) == IsWordChar(s[i])
  {
  }

  /** Before a non-word character, what came earlier does not matter. */
  lemma UpperAfterNonWord(s: string, afterWord: bool)
    requires s == [] || !IsWordChar(s[0])
    ensures UpperWordStartsFrom(s, afterWord) == UpperWordStarts(s)
  {
    assert forall i :: 0 <= i < |s| ==> AtWordStart(s, i, afterWord) == AtWordStart(s, i, false);
  }

  /** The words of the first pass's output, when the input starts with a
      word `w` followed by nothing or by whitespace. */
  lemma UpperOfLeadingWord(w: string, rest: string)
    requires IsWord(w)
    requires rest == [] || IsWs(rest[0])
    ensures Words(UpperWordStarts(w + rest)) == [UpperWordStarts(w)] + Words(UpperWordStarts(rest))
  {
    UpperWordStartsAppend(w, rest, false);
    var uw := UpperWordStarts(w);
    var ur := UpperWordStarts(rest);
    UpperKeepsClasses(w, false);
    UpperKeepsClasses(rest, false);
    assert rest != [] ==> !IsWordChar(rest[0]);
    UpperAfterNonWord(rest, IsWordChar(w[|w| - 1]));
    assert IsWord(uw);
    assert ur == [] || IsWs(ur[0]);
    WordsAfterWord(uw, ur);
  }

  /** Upper-casing word starts, then splitting into words, is splitting
      into words, then upper-casing the word starts of each word. */
  lemma {:induction false} WordsOfUpper(s: string)
    ensures Words(UpperWordStarts(s)) == CapitalizeEach(Words(s))
    decreases |s|
  {
    if s == [] {
    } else if IsWs(s[0]) {
      var u := UpperWordStarts(s);
      assert !IsWordChar(s[0]);
      assert u == [s[0]] + UpperWordStarts(s[1..]);
      assert u[1..] == UpperWordStarts(s[1..]);
      WordsOfUpper(s[1..]);
    } else {
      var n := WordLen(s);
      var w := s[..n];
      var rest := s[n..];
      assert s == w + rest;
      UpperOfLeadingWord(w, rest);
      WordsOfUpper(rest);
      assert Words(s) == [w] + Words(rest);
      assert ([w] + Words(rest))[1..] == Words(rest);
    }
  }

  /** Upper-casing word starts twice is upper-casing them once. */
  lemma UpperIdempotent(s: string, afterWord: bool)
    ensures UpperWordStartsFrom(UpperWordStartsFrom(s, afterWord), afterWord)
         == UpperWordStartsFrom(s, afterWord)
  {
    UpperKeepsClasses(s, afterWord);
    var u := UpperWordStartsFrom(s, afterWord);
    var uu := UpperWordStartsFrom(u, afterWord);
    forall i | 0 <= i < |s|
      ensures uu[i] == u[i]
    {
      assert AtWordStart(u, i, afterWord) == AtWordStart(s, i, afterWord);
    }
  }

  lemma CapitalizeEachKeepsWords(ws: seq<string>)
    requires AllWords(ws)
    ensures AllWords(CapitalizeEach(ws))
  {
    forall k | 0 <= k < |ws|
      ensures IsWord(CapitalizeEach(ws)[k])
    {
      UpperKeepsClasses(ws[k], false);
    }
  }

  // ---------------------------------------------------------------------
  // What `capitalizeWords` promises

  /** The three passes compute the reference: words, each with its word
      starts upper-cased, joined by single spaces. */
  lemma CapitalizeWordsIsJoinOfWords(s: string)
    ensures CapitalizeWords(s) == Join(CapitalizeEach(Words(s)))
  {
    TrimCollapse(UpperWordStarts(s));
    WordsOfUpper(s);
  }

  /** The result has no whitespace at its ends, its only whitespace is
      the plain space, and no two whitespace characters are adjacent. */
  lemma CapitalizeWordsNormalized(s: string)
    ensures Normalized(CapitalizeWords(s))
  {
    CapitalizeWordsIsJoinOfWords(s);
    CapitalizeEachKeepsWords(Words(s));
    JoinNormalized(CapitalizeEach(Words(s)));
  }

  /** The words of the result are the words of the input, each with the
      `\w` characters that start a word upper-cased and nothing else
      changed. */
  lemma CapitalizeWordsWords(s: string)
    ensures Words(CapitalizeWords(s)) == CapitalizeEach(Words(s))
    ensures forall k, i :: 0 <= k < |Words(s)| && 0 <= i < |Words(s)[k]| ==>
      Words(CapitalizeWords(s))[k][i]
        == if AtWordStart(Words(s)[k], i, false) then ToUpper(Words(s)[k][i]) else Words(s)[k][i]
  {
    CapitalizeWordsIsJoinOfWords(s);
    CapitalizeEachKeepsWords(Words(s));
    WordsOfJoin(CapitalizeEach(Words(s)));
  }

  lemma CapitalizeEachIdempotent(ws: seq<string>)
    ensures CapitalizeEach(CapitalizeEach(ws)) == CapitalizeEach(ws)
  {
    var cs := CapitalizeEach(ws);
    forall k | 0 <= k < |cs|
      ensures CapitalizeEach(cs)[k] == cs[k]
    {
      UpperIdempotent(ws[k], false);
    }
  }

  /** Applying the setter to its own output changes nothing. */
  lemma CapitalizeWordsIdempotent(s: string)
    ensures CapitalizeWords(CapitalizeWords(s)) == CapitalizeWords(s)
  {
    var cs := CapitalizeEach(Words(s));
    CapitalizeWordsIsJoinOfWords(s);
    CapitalizeWordsIsJoinOfWords(CapitalizeWords(s));
    CapitalizeWordsWords(s);
    CapitalizeEachIdempotent(Words(s));
  }
}

=== FILE: contact.dfy ===
/** The contact schema of models/contact.js: the `name` setter, the
    validators mongoose runs on `name` and `number`, and the `toJSON`
    transform that shapes what the API sends back. */
module Contact {
  import opened Optional
  import opened Text
  import opened Decimal
  import opened Capitalize

  // ---------------------------------------------------------------------
  // Validators

  /** The validator that rejected a path. Mongoose runs `required` first,
      then the others in the order the schema lists them, and reports the
      first that fails. */
  datatype Rule = Required | MinLength(min: nat) | MaxLength(max: nat) | Match | Custom(message: string)

  const NameMinLength: nat := 3
  const NameMaxLength: nat := 20
  const NumberMinLength: nat := 8
  const NumberMaxLength: nat := 13

  /** `required` on a String path: the value is there and is not empty. */
  predicate Present(v: Option<string>) {
    v.Some? && v.value != []
  }

  /** `/^[A-Za-z\s]+$/` */
  predicate NamePattern(s: string) {
    |s| > 0 && forall i :: 0 <= i < |s| ==> IsAsciiLetter(s[i]) || IsWs(s[i])
  }

  /** `^\d{k}-\d{6,9}$` for one count `k` of leading digits. */
  predicate NumberSplit(s: string, k: nat) {
    && k < |s|
    && AllDigits(s[..k])
    && s[k] == '-'
    && AllDigits(s[k + 1..])
    && 6 <= |s| - (k + 1) <= 9
  }

  /** `/^\d{2,3}-\d{6,9}$/` */
  predicate NumberPattern(s: string) {
    NumberSplit(s, 2) || NumberSplit(s, 3)
  }

  /** The custom validator's message for a rejected number. */
  function NumberMessage(v: string): string {
    v + " is not a valid phone number!"
  }

  /** The validators of `name`, run on the value the setter produced. */
  function CheckName(v: Option<string>): (failed: Option<Rule>)
    ensures failed == None <==>
      v.Some? && NameMinLength <= JsLength(v.value) <= NameMaxLength && NamePattern(v.value)
  {
    if !Present(v) then Some(Required)
    else if JsLength(v.value) < NameMinLength then Some(MinLength(NameMinLength))
    else if JsLength(v.value) > NameMaxLength then Some(MaxLength(NameMaxLength))
    else if !NamePattern(v.value) then Some(Match)
    else None
  }

  /** Every string the number pattern accepts is plain ASCII of 9 to 13
      characters, so the length validators never reject it. */
  lemma NumberPatternLength(s: string)
    requires NumberPattern(s)
    ensures 9 <= |s| <= 13
    ensures JsLength(s) == |s|
  {
    var k := if NumberSplit(s, 2) then 2 else 3;
    forall i | 0 <= i < |s|
      ensures s[i] as int <= 0xFFFF
    {
      if i < k {
        assert s[i] == s[..k][i];
      } else if i > k {
        assert s[i] == s[k + 1..][i - k - 1];
      }
    }
    JsLengthBmp(s);
  }

  /** The validators of `number`. A number is accepted exactly when it
      matches the pattern; the custom validator's message repeats the
      rejected value. */
  function CheckNumber(v: Option<string>): (failed: Option<Rule>)
    ensures failed == None <==> v.Some? && NumberPattern(v.value)
    ensures failed.Some? && failed.value.Custom? ==>
      v.Some? && failed.value.message == v.value + " is not a valid phone number!"
    ensures failed == Some(Required) <==> !Present(v)
    ensures Present(v) && NumberMinLength <= JsLength(v.value) <= NumberMaxLength && !NumberPattern(v.value)
      ==> failed == Some(Custom(v.value + " is not a valid phone number!"))
  {
    if !Present(v) then Some(Required)
    else
      assert NumberPattern(v.value) ==> 9 <= JsLength(v.value) <= 13 by {
        if NumberPattern(v.value) {
          NumberPatternLength(v.value);
        }
      }
      if JsLength(v.value) < NumberMinLength then Some(MinLength(NumberMinLength))
    else if JsLength(v.value) > NumberMaxLength then Some(MaxLength(NumberMaxLength))
    else if !NumberPattern(v.value) then Some(Custom(NumberMessage(v.value)))
    else None
  }

  /** `/^\d{2,3}-\d{6,9}$/.test(v)`, scanning the string once: count the
      leading digits, expect the hyphen, count the digits after it. */
  method MatchNumber(s: string) returns (ok: bool)
    ensures ok <==> NumberPattern(s)
  {
    var i := 0;
    while i < |s| && IsDigit(s[i])
      invariant 0 <= i <= |s|
      invariant AllDigits(s[..i])
    {
      i := i + 1;
    }
    // Whatever split the pattern uses, its hyphen is the first non-digit.
    assert forall m :: 0 <= m < i ==> s[m] == s[..i][m];
    assert forall k :: 0 <= k <= 3 && NumberSplit(s, k) ==> k == i by {
      forall k | 0 <= k <= 3 && NumberSplit(s, k)
        ensures k == i
      {
        assert forall m :: 0 <= m < k ==> s[m] == s[..k][m];
      }
    }
    if i < 2 || i > 3 || i == |s| || s[i] != '-' {
      return false;
    }
    var j := i + 1;
    while j < |s| && IsDigit(s[j])
      invariant i + 1 <= j <= |s|
      invariant AllDigits(s[i + 1..j])
    {
      assert s[i + 1..j + 1] == s[i + 1..j] + [s[j]];
      j := j + 1;
    }
    if j < |s| {
      assert s[j] == s[i + 1..][j - i - 1];
    }
    assert j == |s| ==> s[i + 1..] == s[i + 1..j];
    ok := j == |s| && 6 <= j - (i + 1) <= 9;
  }

  /** The validation errors of a document, keyed by path: at most one per
      path, `name` checked on the value the setter stored. */
  function Validate(name: Option<string>, number: Option<string>): (errors: map<string, Rule>)
    ensures errors.Keys <= {"name", "number"}
    ensures "name" in errors <==> CheckName(name).Some?
    ensures "number" in errors <==> CheckNumber(number).Some?
    ensures errors == map[] <==> CheckName(name) == None && CheckNumber(number) == None
    ensures "name" in errors ==> errors["name"] == CheckName(name).value
    ensures "number" in errors ==> errors["number"] == CheckNumber(number).value
  {
    var nameErrors := match CheckName(name)
      case Some(rule) => map["name" := rule]
      case None => map[];
    var numberErrors := match CheckNumber(number)
      case Some(rule) => map["number" := rule]
      case None => map[];
    nameErrors + numberErrors
  }

  // ---------------------------------------------------------------------
  // What the setter and the validators promise together

  /** On a normalized string the name validators reduce to plain
      character counts: the only whitespace left is the single space. */
  lemma NormalizedNameAcceptedIff(n: string)
    requires Normalized(n)
    ensures CheckName(Some(n)) == None <==>
      && NameMinLength <= |n| <= NameMaxLength
      && forall i :: 0 <= i < |n| ==> IsAsciiLetter(n[i]) || n[i] == ' '
  {
    if forall i :: 0 <= i < |n| ==> IsAsciiLetter(n[i]) || IsWs(n[i]) {
      assert forall i :: 0 <= i < |n| ==> n[i] as int <= 0xFFFF;
      JsLengthBmp(n);
    }
    if forall i :: 0 <= i < |n| ==> IsAsciiLetter(n[i]) || n[i] == ' ' {
      assert forall i :: 0 <= i < |n| ==> n[i] as int <= 0xFFFF;
      JsLengthBmp(n);
    }
  }

  /** A raw name is accepted exactly when its normalized form has 3 to 20
      characters, all ASCII letters or spaces. */
  lemma NameAcceptedIff(raw: string)
    ensures var n := CapitalizeWords(raw);
      CheckName(Some(n)) == None <==>
        && NameMinLength <= |n| <= NameMaxLength
        && forall i :: 0 <= i < |n| ==> IsAsciiLetter(n[i]) || n[i] == ' '
  {
    CapitalizeWordsNormalized(raw);
    NormalizedNameAcceptedIff(CapitalizeWords(raw));
  }

  /** Normalization runs before the length check: padding around a two
      letter name does not save it. */
  lemma PaddedShortNameRejected(raw: string)
    requires raw == "  ab  "
    ensures CapitalizeWords(raw) == "Ab"
    ensures CheckName(Some(CapitalizeWords(raw))) == Some(MinLength(3))
  {
    CapitalizeWordsIsJoinOfWords(raw);
    PaddedWords(raw);
    UpperAb(raw[2..4]);
    assert Join(["Ab"]) == "Ab";
    assert JsLength("Ab") == 2;
  }

  lemma UpperAb(w: string)
    requires w == "ab"
    ensures UpperWordStarts(w) == "Ab"
  {
    var u := UpperWordStarts(w);
    assert AtWordStart(w, 0, false) && !AtWordStart(w, 1, false);
    assert u[0] == 'A' && u[1] == 'b';
  }

  /** The padding around the example is not a word. */
  lemma PaddedWords(raw: string)
    requires raw == "  ab  "
    ensures Words(raw) == [raw[2..4]]
  {
    var w := raw[2..4];
    assert raw[1..][1..] == w + raw[4..];
    WordsAfterWord(w, raw[4..]);
    WordsEmptyIffAllWs(raw[4..]);
  }

  /** The words of a string of letters and spaces are made of letters. */
  lemma LetterWords(n: string)
    requires forall i :: 0 <= i < |n| ==> IsAsciiLetter(n[i]) || n[i] == ' '
    ensures forall k, i :: 0 <= k < |Words(n)| && 0 <= i < |Words(n)[k]| ==>
      IsAsciiLetter(Words(n)[k][i])
  {
    WordCharsFromString(n);
    forall k, i | 0 <= k < |Words(n)| && 0 <= i < |Words(n)[k]|
      ensures IsAsciiLetter(Words(n)[k][i])
    {
      assert IsWord(Words(n)[k]);
      assert Words(n)[k][i] in n;
    }
  }

  /** A word whose first character comes out of the upper-casing pass as
      a letter starts with an upper-case letter. */
  lemma UpperStartLetter(w: string)
    requires IsWord(w) && IsAsciiLetter(UpperWordStarts(w)[0])
    ensures 'A' <= UpperWordStarts(w)[0] <= 'Z'
  {
    assert UpperWordStarts(w)[0] == if AtWordStart(w, 0, false) then ToUpper(w[0]) else w[0];
  }

  /** Every word is made of ASCII letters and starts with an upper-case
      one. */
  predicate TitleCase(n: string) {
    forall k :: 0 <= k < |Words(n)| ==>
      && 'A' <= Words(n)[k][0] <= 'Z'
      && forall i :: 0 <= i < |Words(n)[k]| ==> IsAsciiLetter(Words(n)[k][i])
  }

  /** A string of letters and spaces whose words come out of the
      upper-casing pass is title case. */
  lemma CapitalizedLettersTitleCase(n: string, ws: seq<string>)
    requires forall i :: 0 <= i < |n| ==> IsAsciiLetter(n[i]) || n[i] == ' '
    requires AllWords(ws) && Words(n) == CapitalizeEach(ws)
    ensures TitleCase(n)
  {
    LetterWords(n);
    forall k | 0 <= k < |Words(n)|
      ensures 'A' <= Words(n)[k][0] <= 'Z'
    {
      assert IsWord(ws[k]);
      UpperStartLetter(ws[k]);
    }
  }

  /** The names the schema accepts are title case. */
  lemma AcceptedNameIsTitleCase(raw: string)
    requires CheckName(Some(CapitalizeWords(raw))) == None
    ensures TitleCase(CapitalizeWords(raw))
  {
    NameAcceptedIff(raw);
    CapitalizeWordsWords(raw);
    CapitalizedLettersTitleCase(CapitalizeWords(raw), Words(raw));
  }

  /** A document passes validation exactly when both paths do. */
  lemma ValidateAcceptsIff(rawName: string, number: string)
    ensures var n := CapitalizeWords(rawName);
      Validate(Some(n), Some(number)) == map[] <==>
        && NameMinLength <= |n| <= NameMaxLength
        && (forall i :: 0 <= i < |n| ==> IsAsciiLetter(n[i]) || n[i] == ' ')
        && NumberPattern(number)
  {
    NameAcceptedIff(rawName);
    var errors := Validate(Some(CapitalizeWords(rawName)), Some(number));
    if CheckName(Some(CapitalizeWords(rawName))).Some? {
      assert "name" in errors;
    }
    if CheckNumber(Some(number)).Some? {
      assert "number" in errors;
    }
  }

  /** A number one digit too long after the hyphen passes the length
      validators and is rejected by the pattern, with its own text in the
      message. */
  lemma LongNumberRejected(v: string)
    requires v == "39-4455323523"
    ensures CheckNumber(Some(v)) == Some(Custom(v + " is not a valid phone number!"))
  {
    assert forall i :: 0 <= i < |v| ==> v[i] as int <= 0xFFFF;
    JsLengthBmp(v);
    assert !NumberSplit(v, 2) && !NumberSplit(v, 3) by {
      assert |v| == 13 && v[3] == '4';
    }
  }

  /** A number with two digits, a hyphen and six digits is accepted. */
  lemma ShortestNumberAccepted(v: string)
    requires v == "39-445532"
    ensures CheckNumber(Some(v)) == None
  {
    assert v[..2] == "39" && v[3..] == "445532";
    assert NumberSplit(v, 2);
  }

  // ---------------------------------------------------------------------
  // The toJSON transform

  /** A stored value: a string, a number, or the store's object id. */
  datatype Value = Str(s: string) | Num(n: int) | ObjectId(hex: string)

  /** `toString()` of a stored value. */
  function ValueText(v: Value): string {
    match v
    case Str(s) => s
    case Num(n) => IntToString(n)
    case ObjectId(hex) => hex
  }

  /** A document as `toObject` gives it to the transform; the store always
      sets `_id`. */
  type Document = m: map<string, Value> | "_id" in m witness map["_id" := ObjectId("")]

  /** The `toJSON` transform: `id` becomes the text of `_id`, replacing
      any stored `id`; `_id` and `__v` are removed; every other path is
      kept as it is. */
  function ToJson(doc: Document): (out: map<string, Value>)
    ensures out.Keys == doc.Keys - {"_id", "__v"} + {"id"}
    ensures out["id"] == Str(ValueText(doc["_id"]))
    ensures forall k :: k in out && k != "id" ==> out[k] == doc[k]
  {
    var withId := doc["id" := Str(ValueText(doc["_id"]))];
    withId - {"_id"} - {"__v"}
  }
}

=== FILE: decimal.dfy ===
/** `String(n)` for an integer, and the reading of a digit string back
    into the number it denotes. */
module Decimal {
  import opened Text
  import Optional

  predicate AllDigits(s: string) {
    forall i :: 0 <= i < |s| ==> IsDigit(s[i])
  }

  function DigitChar(d: nat): (c: char)
    requires d < 10
    ensures IsDigit(c)
  {
    ('0' as int + d) as char
  }

  function DigitValue(c: char): (d: nat)
    requires IsDigit(c)
    ensures d < 10
  {
    c as int - '0' as int
  }

  /** A digit string holds no character other than digits. */
  lemma NotInDigits(c: char, s: string)
    requires AllDigits(s) && !IsDigit(c)
    ensures c !in s
  {
  }

  /** The characters `t[lo..hi]` are digits, checked in place. */
  predicate DigitsBetween(t: string, lo: nat, hi: nat)
    requires lo <= hi <= |t|
  {
    forall i :: lo <= i < hi ==> IsDigit(t[i])
  }

  /** The number the digits `t[lo..hi]` denote, most significant digit
      first, read in place. */
  function ValueBetween(t: string, lo: nat, hi: nat): nat
    requires lo <= hi <= |t| && DigitsBetween(t, lo, hi)
    decreases hi - lo
  {
    if hi == lo then 0 else ValueBetween(t, lo, hi - 1) * 10 + DigitValue(t[hi - 1])
  }

  /** The number a digit string denotes. */
  function ValueOf(s: string): nat
    requires AllDigits(s)
  {
    ValueBetween(s, 0, |s|)
  }

  /** The first `k` digits of `x`, read where `x` sits inside `t`. */
  lemma {:induction false} ValueBetweenPrefix(t: string, lo: nat, x: string, k: nat)
    requires k <= |x| && lo + |x| <= |t| && AllDigits(x)
    requires forall i :: lo <= i < lo + |x| ==> t[i] == x[i - lo]
    ensures DigitsBetween(t, lo, lo + k) && ValueBetween(t, lo, lo + k) == ValueBetween(x, 0, k)
    decreases k
  {
    if k > 0 {
      ValueBetweenPrefix(t, lo, x, k - 1);
      assert t[lo + k - 1] == x[k - 1];
    }
  }

  /** Reading in place where `x` sits inside `t` gives the number `x`
      denotes. */
  lemma ValueBetweenIn(t: string, lo: nat, x: string)
    requires lo + |x| <= |t| && AllDigits(x)
    requires forall i :: lo <= i < lo + |x| ==> t[i] == x[i - lo]
    ensures DigitsBetween(t, lo, lo + |x|) && ValueBetween(t, lo, lo + |x|) == ValueOf(x)
  {
    ValueBetweenPrefix(t, lo, x, |x|);
  }

  /** A zero in front of in-place digits does not change their number. */
  lemma {:induction false} ZeroInFront(t: string, lo: nat, hi: nat)
    requires lo < hi <= |t| && DigitsBetween(t, lo, hi) && t[lo] == '0'
    ensures ValueBetween(t, lo, hi) == ValueBetween(t, lo + 1, hi)
    decreases hi - lo
  {
    if hi > lo + 1 {
      ZeroInFront(t, lo, hi - 1);
    }
  }

  /** `String(n)` for a non-negative integer: its shortest decimal form. */
  function NatToString(n: nat): (r: string)
    ensures |r| >= 1 && AllDigits(r)
    ensures ValueOf(r) == n
    ensures r[0] == '0' ==> r == "0"
    ensures n < 10 <==> |r| == 1
    ensures 10 <= n < 100 <==> |r| == 2
    decreases n
  {
    if n < 10 then [DigitChar(n)]
    else
      var p := NatToString(n / 10);
      var r := p + [DigitChar(n % 10)];
      ValueBetweenIn(r, 0, p);
      r
  }

  /** A leading zero does not change the number a digit string denotes. */
  lemma LeadingZero(s: string)
    requires AllDigits(s)
    ensures ValueOf(['0'] + s) == ValueOf(s)
  {
    var z := ['0'] + s;
    if s != [] {
      ZeroInFront(z, 0, |z|);
    }
    ValueBetweenIn(z, 1, s);
  }

  /** A non-empty run of digits read as a number; `None` for anything
      else. */
  function ParseNat(s: string): Optional.Option<nat> {
    if |s| >= 1 && AllDigits(s) then Optional.Some(ValueOf(s)) else Optional.None
  }

  /** Reads an optionally signed decimal integer: a minus sign before a
      run of digits, or a run of digits; `None` for anything else. */
  function ParseInt(s: string): Optional.Option<int> {
    if |s| >= 2 && s[0] == '-' then
      match ParseNat(Slice(s, 1, |s|))
      case Some(m) => Optional.Some(0 - m)
      case None => Optional.None
    else
      match ParseNat(s)
      case Some(n) => Optional.Some(n)
      case None => Optional.None
  }

  /** `String(i)` for any integer: a minus sign before the magnitude of a
      negative number, digits everywhere else. */
  function IntToString(i: int): (r: string)
    ensures |r| >= 1
    ensures r[0] == '-' <==> i < 0
    ensures forall k :: 0 < k < |r| ==> IsDigit(r[k])
    ensures i >= 0 ==> IsDigit(r[0])
    ensures ' ' !in r
  {
    if i < 0 then
      var m := NatToString(-i);
      assert forall k :: 0 < k < |m| + 1 ==> ("-" + m)[k] == m[k - 1];
      "-" + m
    else NatToString(i)
  }

  /** Reading the text of an integer gives the integer back. */
  lemma IntToStringRoundTrip(i: int)
    ensures ParseInt(IntToString(i)) == Optional.Some(i)
  {
    if i < 0 {
      var m := NatToString(-i);
      SliceIs("-" + m, 1, m);
    }
  }

  /** Padding to width two adds one zero to a single character and leaves
      anything longer alone. */
  lemma PadToTwo(d: string)
    requires |d| >= 1
    ensures PadStart(d, 2, '0') == if |d| == 1 then ['0'] + d else d
  {
    var r := PadStart(d, 2, '0');
    if |d| == 1 {
      assert r[1..] == d && r[0] == '0';
      assert r == [r[0]] + r[1..];
    } else {
      assert r[0..] == d;
    }
  }

  /** `String(n).padStart(2, '0')`: at least two digits, exactly two below
      one hundred. The padding is written out here; `TwoDigitsIsPadStart`
      says it is `padStart`. */
  function TwoDigits(n: nat): (r: string)
    ensures |r| >= 2 && AllDigits(r)
    ensures n < 100 <==> |r| == 2
    ensures ' ' !in r && ':' !in r
  {
    var d := NatToString(n);
    if |d| == 1 then ['0'] + d else d
  }

  lemma TwoDigitsIsPadStart(n: nat)
    ensures TwoDigits(n) == PadStart(NatToString(n), 2, '0')
  {
    PadToTwo(NatToString(n));
  }

  /** The padded text still denotes `n`. */
  lemma TwoDigitsValue(n: nat)
    ensures ValueOf(TwoDigits(n)) == n
  {
    var d := NatToString(n);
    if |d| == 1 {
      LeadingZero(d);
    }
  }
}

=== FILE: optional.dfy ===
/** A value that may be absent: a missing request field, an unset
    document path, or a validator that found nothing to complain about. */
module Optional {

  datatype Option<+T> = None | Some(value: T)
}

=== FILE: routes.dfy ===
/** The request handlers of index.js, reduced to what they decide: each
    handler is a total function from the request and the way the store
    call settled to the answer it gives. Express, the promise chains and
    the store itself are not modelled; a store call is an input. */
module Routes {
  import opened Optional
  import opened Text
  import opened Decimal
  import opened Capitalize
  import opened Contact
  import Timestamp

  // ---------------------------------------------------------------------
  // Answers

  /** The body of an answer: `json({ error })`, `json({ message })`, a
      contact passed to `json` (and so through `toJSON`), or an HTML text
      given to `send`. */
  datatype Body =
    | ErrorBody(error: string)
    | MessageBody(message: string)
    | ContactBody(contact: map<string, Value>)
    | ContactList(contacts: seq<map<string, Value>>)
    | Html(html: string)

  datatype Response = Response(status: nat, body: Body)

  /** The `name` and `message` of an error a store call rejects with. */
  datatype StoreError = StoreError(name: string, message: string)

  /** What a handler does with a request: answers it, hands an error to
      `next`, or leaves it without any answer. `NoResponse` covers both a
      request left hanging and a rejection nobody handles. */
  datatype Outcome = Respond(response: Response) | Forward(error: StoreError) | NoResponse

  /** How `findById` or `findByIdAndDelete` settled: with a document, with
      `null`, or by rejecting. */
  datatype Lookup = Found(doc: Document) | Missing | Failed(error: StoreError)

  /** An answer with an error status carries an `{ error }` body, and no
      other answer does. */
  predicate ErrorStatusHasErrorBody(o: Outcome) {
    o.Respond? ==> (o.response.status >= 400 <==> o.response.body.ErrorBody?)
  }

  const NotFound := Response(404, ErrorBody("Contact not found"))

  /** The text between a prefix and a suffix, when `s` has both and they
      do not overlap. */
  function StripAround(s: string, prefix: string, suffix: string): Option<string> {
    if |prefix| + |suffix| <= |s| && StartsAt(s, 0, prefix) && StartsAt(s, |s| - |suffix|, suffix)
    then Some(Slice(s, |prefix|, |s| - |suffix|))
    else None
  }

  /** Whatever is put between a prefix and a suffix can be taken back out. */
  lemma StripAroundOf(prefix: string, x: string, suffix: string)
    ensures StripAround(prefix + x + suffix, prefix, suffix) == Some(x)
  {
    var s := prefix + x + suffix;
    assert forall i :: 0 <= i < |prefix| ==> s[i] == prefix[i];
    assert forall i :: |prefix| <= i < |prefix| + |x| ==> s[i] == x[i - |prefix|];
    assert forall i :: |s| - |suffix| <= i < |s| ==> s[i] == suffix[i - (|s| - |suffix|)];
    SliceIs(s, |prefix|, x);
  }

  // ---------------------------------------------------------------------
  // errorHandler

  /** The error middleware: a `CastError` (an id the store cannot read as
      an object id) is answered with 400; any other error goes on to
      `next` unchanged. The middleware never leaves a request unanswered
      without passing it on. */
  function ErrorHandler(e: StoreError): (o: Outcome)
    ensures o.Respond? <==> e.name == "CastError"
    ensures o.Respond? ==> o.response == Response(400, ErrorBody("malformatted id"))
    ensures !o.Respond? ==> o == Forward(e)
  {
    if e.name == "CastError" then Respond(Response(400, ErrorBody("malformatted id")))
    else Forward(e)
  }

  /** The decision reads the error's name only; its message is logged and
      has no effect on the answer. */
  lemma ErrorHandlerIgnoresMessage(name: string, m1: string, m2: string)
    ensures ErrorHandler(StoreError(name, m1)).Respond? == ErrorHandler(StoreError(name, m2)).Respond?
    ensures ErrorHandler(StoreError(name, m1)).Respond? ==>
      ErrorHandler(StoreError(name, m1)) == ErrorHandler(StoreError(name, m2))
    ensures ErrorStatusHasErrorBody(ErrorHandler(StoreError(name, m1)))
  {
  }

  // ---------------------------------------------------------------------
  // GET /api/persons

  /** How `Contact.find({})` settled: with the stored documents, in the
      order the store returns them, or by rejecting. */
  datatype Listing = Listed(docs: seq<Document>) | ListFailed(error: StoreError)

  const ListFailedMessage := "An error occurred while fetching the data"

  /** The listing is answered with 200 and every document sent through
      `toJSON`, in order; a rejected `find` is caught and answered with
      500. This is the one route that answers a store failure itself
      rather than passing it to `next`. */
  function ListPersons(found: Listing): (o: Outcome)
    ensures ErrorStatusHasErrorBody(o)
    ensures o.Respond?
    ensures o.response.status == 500 <==> found.ListFailed?
    ensures found.ListFailed? ==> o.response.body == ErrorBody("An error occurred while fetching the data")
    ensures found.Listed? ==>
      && o.response.status == 200 && o.response.body.ContactList?
      && |o.response.body.contacts| == |found.docs|
      && forall i :: 0 <= i < |found.docs| ==>
        && o.response.body.contacts[i] == ToJson(found.docs[i])
        && "_id" !in o.response.body.contacts[i] && "__v" !in o.response.body.contacts[i]
        && o.response.body.contacts[i]["id"] == Str(ValueText(found.docs[i]["_id"]))
  {
    match found
    case Listed(docs) =>
      Respond(Response(200, ContactList(seq(|docs|, i requires 0 <= i < |docs| => ToJson(docs[i])))))
    case ListFailed(_) => Respond(Response(500, ErrorBody(ListFailedMessage)))
  }

  // ---------------------------------------------------------------------
  // GET /api/persons/:id

  /** A document found is sent through `toJSON` with 200, `null` is a 404,
      and a rejected lookup is passed to `next` without an answer. */
  function GetById(found: Lookup): (o: Outcome)
    ensures ErrorStatusHasErrorBody(o)
    ensures o == Respond(NotFound) <==> found.Missing?
    ensures o.Forward? <==> found.Failed?
    ensures o.Forward? ==> o.error == found.error
    ensures found.Found? ==>
      && o.Respond? && o.response.status == 200 && o.response.body.ContactBody?
      && "_id" !in o.response.body.contact && "__v" !in o.response.body.contact
      && "id" in o.response.body.contact && o.response.body.contact["id"] == Str(ValueText(found.doc["_id"]))
    ensures found.Found? ==> o == Respond(Response(200, ContactBody(ToJson(found.doc))))
  {
    match found
    case Found(doc) => Respond(Response(200, ContactBody(ToJson(doc))))
    case Missing => Respond(NotFound)
    case Failed(e) => Forward(e)
  }

  // ---------------------------------------------------------------------
  // DELETE /api/persons/:id

  const DeletedPrefix := "The contact with ID "
  const DeletedSuffix := " has been deleted successfully"

  /** The confirmation text, with the requested id as it came in the path. */
  function DeletedMessage(id: string): string {
    DeletedPrefix + id + DeletedSuffix
  }

  /** Reads the id back out of a confirmation text. */
  function DeletedId(message: string): Option<string> {
    StripAround(message, DeletedPrefix, DeletedSuffix)
  }

  /** The confirmation names exactly the id that was requested. */
  lemma DeletedIdOfMessage(id: string)
    ensures DeletedId(DeletedMessage(id)) == Some(id)
  {
    StripAroundOf(DeletedPrefix, id, DeletedSuffix);
  }

  /** Two different ids are never confirmed with the same text. */
  lemma DeletedMessagesDiffer(id1: string, id2: string)
    requires id1 != id2
    ensures DeletedMessage(id1) != DeletedMessage(id2)
  {
    DeletedIdOfMessage(id1);
    DeletedIdOfMessage(id2);
  }

  /** `null` is a 404; a removed document is confirmed with 200 and a
      message naming the requested id; a rejected call goes to `next`. */
  function DeleteById(id: string, found: Lookup): (o: Outcome)
    ensures ErrorStatusHasErrorBody(o)
    ensures o == Respond(NotFound) <==> found.Missing?
    ensures o.Forward? <==> found.Failed?
    ensures o.Forward? ==> o.error == found.error
    ensures found.Found? ==>
      && o.Respond? && o.response.status == 200 && o.response.body.MessageBody?
      && DeletedId(o.response.body.message) == Some(id)
  {
    match found
    case Found(_) =>
      DeletedIdOfMessage(id);
      Respond(Response(200, MessageBody(DeletedMessage(id))))
    case Missing => Respond(NotFound)
    case Failed(e) => Forward(e)
  }

  // ---------------------------------------------------------------------
  // Server state

  /** An entry of the in-memory `persons` array. */
  datatype Person = Person(id: string, name: string, number: string)

  /** What the module keeps between requests: the `persons` array, which
      no handler changes, and the timestamp text computed once when the
      module is loaded. */
  datatype Server = Server(persons: seq<Person>, timestamp: string)

  const SeedPersons: seq<Person> := [
    Person("1", "Arto Hellas", "040-123456"),
    Person("2", "Ada Lovelace", "39-44-5323523"),
    Person("3", "Dan Abramov", "12-43-234345")
  ]

  /** Loading the module: the seed array, and the clock read once. */
  function Start(clock: Timestamp.Clock): (s: Server)
    ensures |s.persons| == 3
  {
    Server(SeedPersons, Timestamp.FormattedTimestamp(clock))
  }

  // ---------------------------------------------------------------------
  // GET /api/info

  const InfoHead := "\n        <h1>Phonebook has info for "
  const InfoMiddle := "</h1>\n        <p>"
  const InfoTail := "</p>"
  const Singular := "person" + InfoMiddle
  const Plural := "persons" + InfoMiddle

  /** The info page for `count` people. */
  function InfoPage(count: nat, timestamp: string): string {
    InfoHead + NatToString(count) + " " + (if count == 1 then Singular else Plural) + timestamp + InfoTail
  }

  /** What a reader of the info page learns: the count, whether the noun
      is plural, and the timestamp shown. */
  datatype InfoReading = InfoReading(count: nat, plural: bool, timestamp: string)

  /** Reads back what the page holds between its head and its tail: the
      count as `String(n)` writes it (no leading zero), a space, the noun
      and the timestamp. */
  function ReadInner(inner: string): Option<InfoReading> {
    var (digits, rest) := Cut(inner, ' ');
    if digits == [] || !AllDigits(digits) || (|digits| > 1 && digits[0] == '0') then None
    else if StartsAt(rest, 0, Singular) then
      Some(InfoReading(ValueOf(digits), false, Slice(rest, |Singular|, |rest|)))
    else if StartsAt(rest, 0, Plural) then
      Some(InfoReading(ValueOf(digits), true, Slice(rest, |Plural|, |rest|)))
    else None
  }

  /** Reads an info page back. */
  function ReadInfo(html: string): Option<InfoReading> {
    match StripAround(html, InfoHead, InfoTail)
    case None => None
    case Some(inner) => ReadInner(inner)
  }

  lemma RegroupPage(head: string, digits: string, noun: string, timestamp: string, tail: string)
    ensures head + digits + " " + noun + timestamp + tail
         == head + (digits + [' '] + (noun + timestamp)) + tail
  {
  }

  lemma ReadInnerOf(count: nat, timestamp: string)
    ensures ReadInner(NatToString(count) + [' '] + ((if count == 1 then Singular else Plural) + timestamp))
         == Some(InfoReading(count, count != 1, timestamp))
  {
    var digits := NatToString(count);
    var noun := if count == 1 then Singular else Plural;
    NotInDigits(' ', digits);
    CutJoin(digits, ' ', noun + timestamp);
    SliceAfter(noun, timestamp);
    if count != 1 {
      assert (noun + timestamp)[6] == 's' != Singular[6];
    }
  }

  /** A count written with a leading zero, as `String(n)` never writes
      it, is not read as a count. */
  lemma ZeroPaddedCountRejected(count: nat, rest: string)
    ensures ReadInner(("0" + NatToString(count)) + [' '] + rest) == None
  {
    var digits := "0" + NatToString(count);
    assert AllDigits(digits) by {
      assert forall i :: 1 <= i < |digits| ==> digits[i] == NatToString(count)[i - 1];
    }
    NotInDigits(' ', digits);
    CutJoin(digits, ' ', rest);
  }

  /** `persons.length` and the stored timestamp can be read back from the
      page, and the noun is plural exactly when the count is not one. */
  lemma ReadInfoPage(count: nat, timestamp: string)
    ensures ReadInfo(InfoPage(count, timestamp)) == Some(InfoReading(count, count != 1, timestamp))
  {
    var digits := NatToString(count);
    var noun := if count == 1 then Singular else Plural;
    RegroupPage(InfoHead, digits, noun, timestamp, InfoTail);
    StripAroundOf(InfoHead, digits + [' '] + (noun + timestamp), InfoTail);
    ReadInnerOf(count, timestamp);
  }

  /** `/api/info`: a page in the singular for one person, in the plural
      for more, and no answer at all for an empty array, since neither
      branch is taken then. */
  function Info(server: Server): (o: Outcome)
    ensures o.NoResponse? <==> |server.persons| == 0
    ensures o.Respond? <==> |server.persons| > 0
    ensures o.Respond? ==>
      && o.response.status == 200 && o.response.body.Html?
      && ReadInfo(o.response.body.html)
           == Some(InfoReading(|server.persons|, |server.persons| > 1, server.timestamp))
  {
    var count := |server.persons|;
    if count == 0 then NoResponse
    else
      ReadInfoPage(count, server.timestamp);
      Respond(Response(200, Html(InfoPage(count, server.timestamp))))
  }

  /** As the module is written the array always holds the three seed
      entries, so the page says "3 persons" and shows the time the module
      was loaded, whatever the time of the request. */
  lemma InfoAsDeployed(clock: Timestamp.Clock)
    ensures Info(Start(clock)).Respond?
    ensures ReadInfo(Info(Start(clock)).response.body.html)
      == Some(InfoReading(3, true, Timestamp.FormattedTimestamp(clock)))
  {
  }

  // ---------------------------------------------------------------------
  // POST /api/persons

  /** A value of the parsed JSON request body; `Absent` for a key the body
      does not have, `Composite` for an object or an array. */
  datatype Json = Absent | Null | Bool(b: bool) | Number(x: real) | JsonString(s: string) | Composite

  /** JavaScript truthiness of a parsed JSON value (JSON has no NaN). */
  predicate Truthy(v: Json) {
    match v
    case Absent => false
    case Null => false
    case Bool(b) => b
    case Number(x) => x != 0.0
    case JsonString(s) => s != []
    case Composite => true
  }

  datatype PostBody = PostBody(name: Json, number: Json)

  /** How the store settles the save of a document that passed validation:
      with the object id it assigned, or by rejecting. */
  datatype Saving = Saved(oid: string) | SaveFailed

  const RequiredMessage := "Both name and number are required"

  /** `${Math.floor(draw * 1000000)}-${count}` for a draw of `Math.random`. */
  function RandomId(draw: real, count: nat): string
    requires 0.0 <= draw < 1.0
  {
    var k := (draw * 1000000.0).Floor;
    NatToString(k) + "-" + NatToString(count)
  }

  /** The generated id is a number below one million, a hyphen, and the
      array length. */
  lemma RandomIdReadsBack(draw: real, count: nat)
    requires 0.0 <= draw < 1.0
    ensures var parts := Cut(RandomId(draw, count), '-');
      && AllDigits(parts.0) && AllDigits(parts.1)
      && ValueOf(parts.0) < 1000000 && ValueOf(parts.1) == count
  {
    var k := (draw * 1000000.0).Floor;
    NotInDigits('-', NatToString(k));
    CutJoin(NatToString(k), '-', NatToString(count));
  }

  /** The document `new Contact({ id, name, number })` is saved as, given
      the name as the setter stored it: the store adds `_id` and the
      version key. */
  function NewDocument(oid: string, id: string, name: string, number: string): Document {
    var fields := map["id" := Str(id), "name" := Str(name), "number" := Str(number), "__v" := Num(0)];
    fields["_id" := ObjectId(oid)]
  }

  /** What the client gets back for a saved contact: the object id as
      `id`, replacing the generated one, and the stored name and number. */
  lemma CreatedContact(oid: string, id: string, name: string, number: string)
    ensures ToJson(NewDocument(oid, id, name, number))
      == map["id" := Str(oid), "name" := Str(name), "number" := Str(number)]
  {
    var doc := NewDocument(oid, id, name, number);
    var out := ToJson(doc);
    var expected := map["id" := Str(oid), "name" := Str(name), "number" := Str(number)];
    assert doc.Keys == {"_id", "id", "name", "number", "__v"};
    assert out.Keys == expected.Keys;
    assert out["name"] == expected["name"];
    assert out["number"] == expected["number"];
  }

  /** POST: a falsy `name` or `number` is answered with 400 before any
      contact is built. Past that guard the contact is built with the
      generated id and saved; only a pair of strings that passes
      validation and is stored is answered, with 200 and the saved
      contact. A failed validation or save rejects a promise nobody
      handles, so the request gets no answer. */
  function Post(server: Server, body: PostBody, draw: real, store: Saving): (o: Outcome)
    requires 0.0 <= draw < 1.0
    ensures ErrorStatusHasErrorBody(o)
    ensures !o.Forward?
    ensures o.Respond? && o.response.status == 400 <==> !Truthy(body.name) || !Truthy(body.number)
    ensures o.Respond? && o.response.status == 400 ==> o.response.body.error == RequiredMessage
    ensures o.Respond? && o.response.status != 400 ==>
      && body.name.JsonString? && body.number.JsonString?
      && var n := CapitalizeWords(body.name.s);
      && NameMinLength <= |n| <= NameMaxLength
      && (forall i :: 0 <= i < |n| ==> IsAsciiLetter(n[i]) || n[i] == ' ')
      && NumberPattern(body.number.s)
      && store.Saved?
      && o.response == Response(200, ContactBody(
           map["id" := Str(store.oid), "name" := Str(n), "number" := Str(body.number.s)]))
  {
    if !Truthy(body.name) || !Truthy(body.number) then
      Respond(Response(400, ErrorBody(RequiredMessage)))
    else if !body.name.JsonString? || !body.number.JsonString? then
      NoResponse
    else
      var name := body.name.s;
      var number := body.number.s;
      var id := RandomId(draw, |server.persons|);
      ValidateAcceptsIff(name, number);
      if Validate(Some(CapitalizeWords(name)), Some(number)) != map[] then NoResponse
      else
        match store
        case SaveFailed => NoResponse
        case Saved(oid) =>
          var stored := CapitalizeWords(name);
          CreatedContact(oid, id, stored, number);
          Respond(Response(200, ContactBody(ToJson(NewDocument(oid, id, stored, number)))))
  }

  /** Every pair of strings that passes validation is answered with 200
      once the store saves it, whatever the draw and the array. */
  lemma PostAcceptsValid(server: Server, name: string, number: string, draw: real, oid: string)
    requires 0.0 <= draw < 1.0
    requires CheckName(Some(CapitalizeWords(name))) == None && CheckNumber(Some(number)) == None
    ensures Post(server, PostBody(JsonString(name), JsonString(number)), draw, Saved(oid)).Respond?
  {
    AcceptedFieldsNotEmpty(name, number);
  }

  /** A name the validators accept after the setter, and a number they
      accept, are both truthy strings. */
  lemma AcceptedFieldsNotEmpty(name: string, number: string)
    requires CheckName(Some(CapitalizeWords(name))) == None && CheckNumber(Some(number)) == None
    ensures name != [] && number != []
  {
    NumberPatternLength(number);
  }

  /** The guard's answer depends on the two fields alone: neither the
      draw, nor the array, nor the store is consulted when it fires. */
  lemma PostGuardFirst(s1: Server, s2: Server, body: PostBody, d1: real, d2: real, st1: Saving, st2: Saving)
    requires 0.0 <= d1 < 1.0 && 0.0 <= d2 < 1.0
    requires !Truthy(body.name) || !Truthy(body.number)
    ensures Post(s1, body, d1, st1) == Post(s2, body, d2, st2)
      == Respond(Response(400, ErrorBody(RequiredMessage)))
  {
  }
}

=== FILE: text.dfy ===
/** Characters and strings as the JavaScript runtime sees them: the `\s`
    and `\w` classes of its regular expressions, `String.prototype.trim`,
    `split` on one separator, `padStart`, and `length` counted in UTF-16
    code units. */
module Text {

  /** JavaScript's `\s`, which is also the set `trim` removes: the
      WhiteSpace and LineTerminator code points (space separators of
      Unicode category Zs included). */
  predicate IsWs(c: char) {
    var n := c as int;
    || n == 0x20 || (0x09 <= n <= 0x0D) || n == 0xA0 || n == 0x1680
    || (0x2000 <= n <= 0x200A) || n == 0x2028 || n == 0x2029 || n == 0x202F
    || n == 0x205F || n == 0x3000 || n == 0xFEFF
  }

  /** JavaScript's `\w` (no `u` flag): `[A-Za-z0-9_]`. */
  predicate IsWordChar(c: char) {
    ('a' <= c <= 'z') || ('A' <= c <= 'Z') || ('0' <= c <= '9') || c == '_'
  }

  predicate IsAsciiLetter(c: char) {
    ('a' <= c <= 'z') || ('A' <= c <= 'Z')
  }

  /** JavaScript's `\d`. */
  predicate IsDigit(c: char) {
    '0' <= c <= '9'
  }

  /** `toUpperCase` on a single `\w` character: only `a`..`z` change. */
  function ToUpper(c: char): char {
    if 'a' <= c <= 'z' then (c as int - 32) as char else c
  }

  /** `.length` of a JavaScript string: code points above U+FFFF take two
      UTF-16 code units. */
  function JsLength(s: string): nat {
    if s == [] then 0 else (if s[0] as int > 0xFFFF then 2 else 1) + JsLength(s[1..])
  }

  /** Every character is in the Basic Multilingual Plane, so `.length`
      counts characters. */
  lemma {:induction false} JsLengthBmp(s: string)
    requires forall i :: 0 <= i < |s| ==> s[i] as int <= 0xFFFF
    ensures JsLength(s) == |s|
  {
    if s != [] {
      JsLengthBmp(s[1..]);
    }
  }

  predicate AllWs(s: string) {
    forall i :: 0 <= i < |s| ==> IsWs(s[i])
  }

  /** No whitespace at either end. */
  predicate Trimmed(s: string) {
    s == [] || (!IsWs(s[0]) && !IsWs(s[|s| - 1]))
  }

  /** The end of the whitespace run that starts at `k`: the first index at
      or after `k` that is not whitespace, or `|s|`. */
  function WsRunEnd(s: string, k: nat): (e: nat)
    requires k <= |s|
    ensures k <= e <= |s|
    ensures forall i :: k <= i < e ==> IsWs(s[i])
    ensures e < |s| ==> !IsWs(s[e])
    decreases |s| - k
  {
    if k < |s| && IsWs(s[k]) then WsRunEnd(s, k + 1) else k
  }

  /** The start of the whitespace run that ends just before `k`: the
      index after the last non-whitespace character before `k`, or 0. */
  function WsRunStart(s: string, k: nat): (b: nat)
    requires k <= |s|
    ensures b <= k
    ensures forall i :: b <= i < k ==> IsWs(s[i])
    ensures b > 0 ==> !IsWs(s[b - 1])
    decreases k
  {
    if k > 0 && IsWs(s[k - 1]) then WsRunStart(s, k - 1) else k
  }

  /** The characters `s[lo]` to `s[hi - 1]`, read one index at a time (the
      same string as `s[lo..hi]`). */
  function Slice(s: string, lo: nat, hi: nat): (r: string)
    requires lo <= hi <= |s|
    ensures |r| == hi - lo
    decreases hi - lo
  {
    if lo == hi then [] else [s[lo]] + Slice(s, lo + 1, hi)
  }

  /** Character `i` of `Slice(s, lo, hi)` is character `lo + i` of `s`.
      Kept out of the contract of `Slice`, where it would meet the
      indexing rules of concatenation in every proof that cuts a
      string. */
  lemma {:induction false} SliceIndex(s: string, lo: nat, hi: nat)
    requires lo <= hi <= |s|
    ensures forall i :: 0 <= i < hi - lo ==> Slice(s, lo, hi)[i] == s[lo + i]
    decreases hi - lo
  {
    if lo < hi {
      SliceIndex(s, lo + 1, hi);
    }
  }

  /** `x` occurs in `s` starting at index `lo`. */
  predicate StartsAt(s: string, lo: nat, x: string) {
    lo + |x| <= |s| && forall i :: lo <= i < lo + |x| ==> s[i] == x[i - lo]
  }

  /** The slice holding exactly the characters of `x` is `x`. */
  lemma SliceIs(s: string, lo: nat, x: string)
    requires StartsAt(s, lo, x)
    ensures Slice(s, lo, lo + |x|) == x
  {
    SliceIndex(s, lo, lo + |x|);
    assert forall i :: 0 <= i < |x| ==> Slice(s, lo, lo + |x|)[i] == s[lo + i] == x[i];
  }

  /** The first piece of a concatenation starts it, and slicing off the
      first piece leaves the second. */
  lemma SliceAfter(x: string, y: string)
    ensures StartsAt(x + y, 0, x) && Slice(x + y, |x|, |x + y|) == y
  {
    var s := x + y;
    assert forall i :: 0 <= i < |x| ==> s[i] == x[i];
    assert forall i :: |x| <= i < |x| + |y| ==> s[i] == y[i - |x|];
    SliceIs(s, |x|, y);
  }

  /** The length of the leading whitespace run. */
  function LeadingWs(s: string): (k: nat)
    ensures k <= |s|
    ensures AllWs(s[..k])
    ensures k < |s| ==> !IsWs(s[k])
  {
    WsRunEnd(s, 0)
  }

  /** Drops the leading whitespace: the result is the suffix of `s` that
      starts at its first non-whitespace character. */
  function TrimStart(s: string): (r: string)
    ensures |r| <= |s| && r == s[|s| - |r|..]
    ensures AllWs(s[..|s| - |r|])
    ensures r == [] || !IsWs(r[0])
    ensures s != [] && IsWs(s[0]) ==> |r| < |s|
  {
    s[LeadingWs(s)..]
  }

  /** A whitespace run read from index `k + 1` of `s` is the run read from
      index `k` of `s[1..]`, one further along. */
  lemma {:induction false} WsRunEndShift(s: string, k: nat)
    requires k < |s|
    ensures WsRunEnd(s, k + 1) == 1 + WsRunEnd(s[1..], k)
    decreases |s| - k
  {
    if k + 1 < |s| && IsWs(s[k + 1]) {
      WsRunEndShift(s, k + 1);
    }
  }

  /** Trimming the start skips a leading whitespace character. */
  lemma TrimStartCons(s: string)
    requires s != [] && IsWs(s[0])
    ensures TrimStart(s) == TrimStart(s[1..])
  {
    WsRunEndShift(s, 0);
  }

  /** `String.prototype.trim`: the characters from the first to the last
      non-whitespace one. */
  function Trim(s: string): (r: string)
    ensures Trimmed(r)
    ensures r == [] <==> AllWs(s)
  {
    var lo := WsRunEnd(s, 0);
    if lo == |s| then []
    else
      var hi := WsRunStart(s, |s|);
      assert lo < hi;
      var r := Slice(s, lo, hi);
      SliceIndex(s, lo, hi);
      assert r[0] == s[lo] && r[|r| - 1] == s[hi - 1];
      r
  }

  /** A run of whitespace from `k` that stops at `e` is the run
      `WsRunEnd` finds. */
  lemma WsRunEndAt(s: string, k: nat, e: nat)
    requires k <= e <= |s|
    requires forall i :: k <= i < e ==> IsWs(s[i])
    requires e < |s| ==> !IsWs(s[e])
    ensures WsRunEnd(s, k) == e
  {
  }

  /** A run of whitespace that ends before `k` and starts at `b` is the
      run `WsRunStart` finds. */
  lemma WsRunStartAt(s: string, k: nat, b: nat)
    requires b <= k <= |s|
    requires forall i :: b <= i < k ==> IsWs(s[i])
    requires b > 0 ==> !IsWs(s[b - 1])
    ensures WsRunStart(s, k) == b
  {
  }

  /** A string with whitespace before `lo`, whitespace from `hi` on and
      non-whitespace at both `lo` and `hi - 1` trims to the characters
      in between. */
  lemma TrimBetween(s: string, lo: nat, hi: nat)
    requires lo < hi <= |s|
    requires forall i :: 0 <= i < lo ==> IsWs(s[i])
    requires forall i :: hi <= i < |s| ==> IsWs(s[i])
    requires !IsWs(s[lo]) && !IsWs(s[hi - 1])
    ensures Trim(s) == Slice(s, lo, hi)
  {
    WsRunEndAt(s, 0, lo);
    WsRunStartAt(s, |s|, hi);
  }

  lemma AllWsAppend(a: string, b: string)
    requires AllWs(a) && AllWs(b)
    ensures AllWs(a + b)
  {
    assert forall i :: 0 <= i < |a + b| ==> (a + b)[i] == if i < |a| then a[i] else b[i - |a|];
  }

  /** `trim` removes exactly the surrounding whitespace: whatever
      whitespace is put around a trimmed string, trimming gives it back. */
  lemma TrimExact(a: string, x: string, b: string)
    requires AllWs(a) && AllWs(b)
    requires Trimmed(x)
    ensures Trim(a + x + b) == x
  {
    var s := a + x + b;
    if x == [] {
      AllWsAppend(a, b);
      assert s == a + b;
    } else {
      assert forall i :: 0 <= i < |a| ==> s[i] == a[i];
      assert forall i :: |a| <= i < |a| + |x| ==> s[i] == x[i - |a|];
      assert forall i :: |a| + |x| <= i < |s| ==> s[i] == b[i - |a| - |x|];
      TrimBetween(s, |a|, |a| + |x|);
      SliceIs(s, |a|, x);
    }
  }

  /** Trimming only removes characters: whatever is left was in `s`. */
  lemma TrimKeepsChars(s: string)
    ensures forall c :: c in Trim(s) ==> c in s
  {
    var lo := WsRunEnd(s, 0);
    if lo < |s| {
      SliceIndex(s, lo, WsRunStart(s, |s|));
    }
  }

  /** Number of characters before the first `sep`, or `|s|` when `sep`
      does not occur. */
  function FieldLen(s: string, sep: char): (n: nat)
    ensures n <= |s|
    ensures forall i :: 0 <= i < n ==> s[i] != sep
    ensures n < |s| ==> s[n] == sep
  {
    FieldEnd(s, sep, 0)
  }

  /** The first index at or after `k` that holds `sep`, or `|s|`. */
  function FieldEnd(s: string, sep: char, k: nat): (n: nat)
    requires k <= |s|
    requires forall i :: 0 <= i < k ==> s[i] != sep
    ensures k <= n <= |s|
    ensures forall i :: 0 <= i < n ==> s[i] != sep
    ensures n < |s| ==> s[n] == sep
    decreases |s| - k
  {
    if k == |s| || s[k] == sep then k else FieldEnd(s, sep, k + 1)
  }

  /** The text before the first `sep` and the text after it (empty when
      there is no `sep`). */
  function Cut(s: string, sep: char): (r: (string, string))
    ensures sep !in r.0
    ensures sep in s ==> s == r.0 + [sep] + r.1
    ensures sep !in s ==> r == (s, [])
  {
    var n := FieldLen(s, sep);
    if n == |s| then
      (s, [])
    else
      var r := (Slice(s, 0, n), Slice(s, n + 1, |s|));
      SliceIndex(s, 0, n);
      SliceIndex(s, n + 1, |s|);
      assert forall i :: 0 <= i < |s| ==> s[i] == (r.0 + [sep] + r.1)[i];
      r
  }

  /** `Cut` takes apart what the separator joined, when the first piece
      does not contain the separator. */
  lemma CutJoin(w: string, sep: char, rest: string)
    requires sep !in w
    ensures Cut(w + [sep] + rest, sep) == (w, rest)
  {
    var s := w + [sep] + rest;
    assert forall i :: 0 <= i < |w| ==> s[i] == w[i];
    assert s[|w|] == sep;
    assert FieldLen(s, sep) == |w|;
    SliceIs(s, 0, w);
    assert forall i :: |w| + 1 <= i < |s| ==> s[i] == rest[i - |w| - 1];
    SliceIs(s, |w| + 1, rest);
  }

  /** The inverse of `Split`: the parts glued back with the separator. */
  function JoinWith(parts: seq<string>, sep: char): string {
    if |parts| == 0 then []
    else if |parts| == 1 then parts[0]
    else parts[0] + [sep] + JoinWith(parts[1..], sep)
  }

  /** `s.split(sep)` for a one-character separator: the maximal pieces
      between separators, empty pieces included. */
  function Split(s: string, sep: char): (parts: seq<string>)
    ensures |parts| >= 1
    ensures forall k :: 0 <= k < |parts| ==> sep !in parts[k]
    ensures JoinWith(parts, sep) == s
    decreases |s|
  {
    if sep !in s then [s]
    else
      var (w, rest) := Cut(s, sep);
      var parts := [w] + Split(rest, sep);
      assert parts[1..] == Split(rest, sep);
      parts
  }

  /** `s.padStart(width, fill)` for a one-character fill string. */
  function PadStart(s: string, width: nat, fill: char): (r: string)
    ensures |r| == if |s| >= width then |s| else width
    ensures r[|r| - |s|..] == s
    ensures forall i :: 0 <= i < |r| - |s| ==> r[i] == fill
    decreases width - |s|
  {
    if |s| >= width then s else PadStart([fill] + s, width, fill)
  }
}

=== FILE: timestamp.dfy ===
/** `getFormattedTimestamp` of time.js: the moment the server started,
    written as `Sat Oct 10 2026 09:05:03 GMT +0200 (label)` — with a space
    after `GMT` — where the label is the time zone part of the `en-US` long
    form. The calls into `Date` and `Intl` are lifted into a `Clock`
    value. */
module Timestamp {
  import opened Optional
  import opened Text
  import opened Decimal

  /** What the `Date` and `Intl` calls return for one moment. */
  datatype Clock = Clock(
    weekday: string,     // toLocaleString('en-US', { weekday: 'short' })
    month: string,       // toLocaleString('en-US', { month: 'short' })
    day: nat,            // getDate()
    year: int,           // getFullYear()
    hours: nat,          // getHours()
    minutes: nat,        // getMinutes()
    seconds: nat,        // getSeconds()
    tzOffset: int,       // getTimezoneOffset(), minutes behind UTC
    longName: string     // Intl.DateTimeFormat('en-US', { timeZoneName: 'long' }).format(date)
  )

  /** `a`, the separator, then `b`. */
  function Sep(a: string, sep: char, b: string): string {
    a + [sep] + b
  }

  /** The zone label: the second comma-separated part of the long name,
      trimmed; empty when the long name has no comma. Computed by cutting
      at commas; `TzLabelIsSplit` says it is the `split(',')` of the
      source. */
  function TzLabel(longName: string): (name: string)
    ensures ',' !in longName ==> name == ""
    ensures Trimmed(name) && ',' !in name
  {
    if ',' in longName then
      var part := Cut(Cut(longName, ',').1, ',').0;
      TrimKeepsChars(part);
      Trim(part)
    else ""
  }

  /** The label is what `split(',')` and `trim` give: the second part,
      trimmed, when there are at least two parts. */
  lemma TzLabelIsSplit(longName: string)
    ensures var parts := Split(longName, ',');
      TzLabel(longName) == if |parts| > 1 then Trim(parts[1]) else ""
  {
    if ',' in longName {
      var after := Cut(longName, ',').1;
      assert Split(longName, ',')[1] == Split(after, ',')[0];
    }
  }

  lemma NoSpaceInSep(a: string, sep: char, b: string)
    requires ' ' !in a && ' ' !in b && sep != ' '
    ensures ' ' !in Sep(a, sep, b)
  {
  }

  lemma NoSpaceAfterSign(s: string)
    requires |s| >= 1 && s[0] != ' ' && DigitsBetween(s, 1, |s|)
    ensures ' ' !in s
  {
    assert forall i :: 0 <= i < |s| ==> s[i] != ' ';
  }

  lemma DigitsAfterSign(sign: char, hh: string, mm: string)
    requires AllDigits(hh) && AllDigits(mm)
    ensures DigitsBetween([sign] + hh + mm, 1, |hh| + |mm| + 1)
  {
    var t := [sign] + hh + mm;
    assert forall i :: 1 <= i <= |hh| ==> t[i] == hh[i - 1];
    assert forall i :: |hh| < i < |t| ==> t[i] == mm[i - 1 - |hh|];
  }

  /** The label is the trimmed text after the first comma, and anything
      from a second comma on is dropped. */
  lemma TzLabelOfParts(date: string, zone: string, rest: string)
    requires ',' !in date && ',' !in zone
    ensures TzLabel(date + [','] + zone) == Trim(zone)
    ensures TzLabel(date + [','] + zone + [','] + rest) == Trim(zone)
  {
    CutJoin(date, ',', zone);
    assert Cut(zone, ',') == (zone, []);
    var s := date + [','] + zone + [','] + rest;
    assert s == date + [','] + (zone + [','] + rest);
    CutJoin(date, ',', zone + [','] + rest);
    CutJoin(zone, ',', rest);
  }

  /** The offset for a `getTimezoneOffset()` of `behind` minutes, shown
      as minutes east of UTC, `-behind`, in the form `+HHMM` or `-HHMM`. */
  function OffsetText(behind: int): (t: string)
    ensures |t| >= 5 && (t[0] == '+' <==> -behind >= 0) && (t[0] == '-' <==> -behind < 0)
    ensures DigitsBetween(t, 1, |t|)
    ensures ' ' !in t
    ensures (if behind <= 0 then -behind else behind) < 6000 ==> |t| == 5
  {
    var a := if behind <= 0 then -behind else behind;
    var sign := if behind <= 0 then '+' else '-';
    DigitsAfterSign(sign, TwoDigits(a / 60), TwoDigits(a % 60));
    NoSpaceAfterSign([sign] + TwoDigits(a / 60) + TwoDigits(a % 60));
    [sign] + TwoDigits(a / 60) + TwoDigits(a % 60)
  }

  /** `${hour}:${minute}:${second}` */
  function TimeText(c: Clock): (t: string)
    ensures ' ' !in t
  {
    var hh := TwoDigits(c.hours);
    var mm := TwoDigits(c.minutes);
    var ss := TwoDigits(c.seconds);
    NoSpaceInSep(mm, ':', ss);
    NoSpaceInSep(hh, ':', Sep(mm, ':', ss));
    Sep(hh, ':', Sep(mm, ':', ss))
  }

  /** The space-separated pieces of a timestamp; the last one is the
      rest of the text, spaces and all. */
  datatype Tokens = Tokens(
    weekday: string, month: string, day: string, year: string,
    time: string, gmt: string, offset: string, zone: string)

  /** The pieces glued back with single spaces. */
  function Untokenize(k: Tokens): string {
    Sep(k.weekday, ' ', Sep(k.month, ' ', Sep(k.day, ' ', Sep(k.year, ' ',
    Sep(k.time, ' ', Sep(k.gmt, ' ', Sep(k.offset, ' ', k.zone)))))))
  }

  /** The pieces `getFormattedTimestamp` puts between the spaces, around a
      given offset text and zone label (passed in so that a proof about the
      other pieces need not look inside these two). */
  function TokensWith(c: Clock, offset: string, zone: string): Tokens {
    Tokens(c.weekday, c.month, TwoDigits(c.day), IntToString(c.year), TimeText(c),
      "GMT", offset, "(" + zone + ")")
  }

  /** `getFormattedTimestamp()`: weekday, month, day, year, time, `GMT`,
      offset and the parenthesised zone label, separated by single
      spaces. */
  function FormattedTimestamp(c: Clock): string {
    Untokenize(TokensWith(c, OffsetText(c.tzOffset), TzLabel(c.longName)))
  }

  // ---------------------------------------------------------------------
  // Reading a timestamp back

  /** What a reader of the timestamp can recover. */
  datatype Fields = Fields(
    weekday: string, month: string, day: nat, year: int,
    hours: nat, minutes: nat, seconds: nat,
    eastMinutes: int, zone: string)

  /** `+HHMM` or `-HHMM` (at least two hour digits) read as minutes east
      of UTC. */
  function ParseOffset(t: string): Option<int> {
    if |t| >= 5 && (t[0] == '+' || t[0] == '-') && DigitsBetween(t, 1, |t|) then
      var m := ValueBetween(t, 1, |t| - 2) * 60 + ValueBetween(t, |t| - 2, |t|);
      Some(if t[0] == '+' then m else -m)
    else None
  }

  /** `HH:MM:SS` read as three numbers. */
  function ParseTime(t: string): Option<(nat, nat, nat)> {
    var (hh, r) := Cut(t, ':');
    var (mm, ss) := Cut(r, ':');
    match (ParseNat(hh), ParseNat(mm), ParseNat(ss))
    case (Some(h), Some(m), Some(s)) => Some((h, m, s))
    case _ => None
  }

  /** `(label)` read as the label. */
  function ParseZone(t: string): Option<string> {
    if |t| >= 2 && t[0] == '(' && t[|t| - 1] == ')' then Some(Slice(t, 1, |t| - 1)) else None
  }

  /** Cuts a timestamp at its first seven spaces. */
  function Tokenize(t: string): Tokens {
    var (weekday, r1) := Cut(t, ' ');
    var (month, r2) := Cut(r1, ' ');
    var (day, r3) := Cut(r2, ' ');
    var (year, r4) := Cut(r3, ' ');
    var (time, r5) := Cut(r4, ' ');
    var (gmt, r6) := Cut(r5, ' ');
    var (offset, zone) := Cut(r6, ' ');
    Tokens(weekday, month, day, year, time, gmt, offset, zone)
  }

  /** Reads each piece. */
  function Interpret(k: Tokens): Option<Fields> {
    var day := ParseNat(k.day);
    var year := ParseInt(k.year);
    var time := ParseTime(k.time);
    var offset := ParseOffset(k.offset);
    var zone := ParseZone(k.zone);
    if k.gmt == "GMT" && day.Some? && year.Some? && time.Some? && offset.Some? && zone.Some? then
      Some(Fields(k.weekday, k.month, day.value, year.value,
        time.value.0, time.value.1, time.value.2, offset.value, zone.value))
    else None
  }

  /** Reads a formatted timestamp back into its fields; `None` when a
      piece does not have the expected form. */
  function ParseTimestamp(t: string): Option<Fields> {
    Interpret(Tokenize(t))
  }

  // ---------------------------------------------------------------------
  // The round trip

  /** Reading a sign followed by hour and minute digits. */
  lemma ParseOffsetOf(sign: char, hh: string, mm: string, a: nat)
    requires sign == '+' || sign == '-'
    requires |hh| >= 2 && AllDigits(hh) && |mm| == 2 && AllDigits(mm)
    requires ValueOf(hh) * 60 + ValueOf(mm) == a
    ensures ParseOffset([sign] + hh + mm) == Some(if sign == '+' then a as int else -(a as int))
  {
    SignedLayout(sign, hh, mm);
    ParseOffsetIn([sign] + hh + mm, sign, hh, mm, a);
  }

  lemma SignedLayout(sign: char, hh: string, mm: string)
    ensures |[sign] + hh + mm| == 1 + |hh| + |mm| && ([sign] + hh + mm)[0] == sign
    ensures forall i :: 1 <= i < 1 + |hh| ==> ([sign] + hh + mm)[i] == hh[i - 1]
    ensures forall i :: 1 + |hh| <= i < 1 + |hh| + |mm| ==> ([sign] + hh + mm)[i] == mm[i - (1 + |hh|)]
  {
  }

  /** Reading `t`, laid out as a sign, hour digits and minute digits. */
  lemma ParseOffsetIn(t: string, sign: char, hh: string, mm: string, a: nat)
    requires sign == '+' || sign == '-'
    requires |hh| >= 2 && AllDigits(hh) && |mm| == 2 && AllDigits(mm)
    requires ValueOf(hh) * 60 + ValueOf(mm) == a
    requires |t| == 1 + |hh| + |mm| && t[0] == sign
    requires forall i :: 1 <= i < 1 + |hh| ==> t[i] == hh[i - 1]
    requires forall i :: 1 + |hh| <= i < 1 + |hh| + |mm| ==> t[i] == mm[i - (1 + |hh|)]
    ensures ParseOffset(t) == Some(if sign == '+' then a as int else -(a as int))
  {
    ValueBetweenIn(t, 1, hh);
    ValueBetweenIn(t, 1 + |hh|, mm);
    assert DigitsBetween(t, 1, |t|);
  }

  /** Reading the offset text gives the offset back. */
  lemma OffsetRoundTrip(behind: int)
    ensures ParseOffset(OffsetText(behind)) == Some(-behind)
  {
    var east := -behind;
    var a := if east >= 0 then east else -east;
    var h := a / 60;
    var m := a % 60;
    assert h * 60 + m == a;
    var sign := if east >= 0 then '+' else '-';
    var hh := TwoDigits(h);
    var mm := TwoDigits(m);
    TwoDigitsValue(h);
    TwoDigitsValue(m);
    var t := OffsetText(behind);
    assert t == [sign] + hh + mm;
    ParseOffsetOf(sign, hh, mm, a);
    assert (if sign == '+' then a as int else -(a as int)) == east;
    assert ParseOffset(t) == Some(east);
  }

  /** The hour and minute numbers read in place from a sign followed by
      hour digits and two minute digits. */
  lemma SignedValues(sign: char, hh: string, mm: string)
    requires AllDigits(hh) && |mm| == 2 && AllDigits(mm)
    ensures var t := [sign] + hh + mm;
      && DigitsBetween(t, 1, |t| - 2) && DigitsBetween(t, |t| - 2, |t|)
      && ValueBetween(t, 1, |t| - 2) == ValueOf(hh)
      && ValueBetween(t, |t| - 2, |t|) == ValueOf(mm)
  {
    var t := [sign] + hh + mm;
    SignedLayout(sign, hh, mm);
    ValueBetweenIn(t, 1, hh);
    ValueBetweenIn(t, 1 + |hh|, mm);
  }

  /** The digits after the sign are hours and minutes: hours times sixty
      plus minutes is the size of the offset, and the minutes stay below
      sixty. No offset at all is written `+0000`. */
  lemma OffsetDigits(behind: int)
    ensures var t := OffsetText(behind);
      && ValueBetween(t, 1, |t| - 2) * 60 + ValueBetween(t, |t| - 2, |t|)
           == (if behind <= 0 then -behind else behind)
      && ValueBetween(t, |t| - 2, |t|) < 60
    ensures behind == 0 ==> OffsetText(behind) == "+0000"
  {
    var a := if behind <= 0 then -behind else behind;
    var h := a / 60;
    var m := a % 60;
    assert h * 60 + m == a && m < 60;
    var sign := if behind <= 0 then '+' else '-';
    var hh := TwoDigits(h);
    var mm := TwoDigits(m);
    TwoDigitsValue(h);
    TwoDigitsValue(m);
    assert OffsetText(behind) == [sign] + hh + mm;
    SignedValues(sign, hh, mm);
    if behind == 0 {
      assert hh == "00" && mm == "00";
    }
  }

  lemma TimeRoundTrip(c: Clock)
    ensures ParseTime(TimeText(c)) == Some((c.hours, c.minutes, c.seconds))
  {
    var hh := TwoDigits(c.hours);
    var mm := TwoDigits(c.minutes);
    var ss := TwoDigits(c.seconds);
    CutJoin(hh, ':', Sep(mm, ':', ss));
    CutJoin(mm, ':', ss);
    TwoDigitsValue(c.hours);
    TwoDigitsValue(c.minutes);
    TwoDigitsValue(c.seconds);
  }

  lemma ZoneRoundTrip(name: string)
    ensures ParseZone("(" + name + ")") == Some(name)
  {
    SliceIs("(" + name + ")", 1, name);
  }

  /** Cutting at spaces undoes gluing with spaces, as long as none of the
      first seven pieces holds a space. */
  lemma TokenizeUntokenize(k: Tokens)
    requires ' ' !in k.weekday && ' ' !in k.month && ' ' !in k.day && ' ' !in k.year
    requires ' ' !in k.time && k.gmt == "GMT" && ' ' !in k.offset
    ensures Tokenize(Untokenize(k)) == k
  {
    assert ' ' !in "GMT";
    var r6 := Sep(k.offset, ' ', k.zone);
    var r5 := Sep(k.gmt, ' ', r6);
    var r4 := Sep(k.time, ' ', r5);
    var r3 := Sep(k.year, ' ', r4);
    var r2 := Sep(k.day, ' ', r3);
    var r1 := Sep(k.month, ' ', r2);
    CutJoin(k.weekday, ' ', r1);
    CutJoin(k.month, ' ', r2);
    CutJoin(k.day, ' ', r3);
    CutJoin(k.year, ' ', r4);
    CutJoin(k.time, ' ', r5);
    CutJoin(k.gmt, ' ', r6);
    CutJoin(k.offset, ' ', k.zone);
  }


  lemma DayOfTokensWith(c: Clock, offset: string, zone: string)
    ensures ParseNat(TokensWith(c, offset, zone).day) == Some(c.day)
  {
    TwoDigitsValue(c.day);
  }

  lemma YearOfTokensWith(c: Clock, offset: string, zone: string)
    ensures ParseInt(TokensWith(c, offset, zone).year) == Some(c.year)
  {
    IntToStringRoundTrip(c.year);
  }

  lemma TimeOfTokensWith(c: Clock, offset: string, zone: string)
    ensures ParseTime(TokensWith(c, offset, zone).time) == Some((c.hours, c.minutes, c.seconds))
  {
    TimeRoundTrip(c);
  }

  lemma ZoneOfTokensWith(c: Clock, offset: string, zone: string)
    ensures ParseZone(TokensWith(c, offset, zone).zone) == Some(zone)
  {
    ZoneRoundTrip(zone);
  }

  lemma InterpretTokensWithSucceeds(c: Clock, offset: string, east: int, zone: string)
    requires ParseOffset(offset) == Some(east)
    ensures Interpret(TokensWith(c, offset, zone)).Some?
  {
    DayOfTokensWith(c, offset, zone);
    YearOfTokensWith(c, offset, zone);
    TimeOfTokensWith(c, offset, zone);
    ZoneOfTokensWith(c, offset, zone);
  }

  /** Each piece reads back as the value it was made from, for any offset
      text that reads back. */
  lemma InterpretTokensWith(c: Clock, offset: string, east: int, zone: string)
    requires ParseOffset(offset) == Some(east)
    ensures Interpret(TokensWith(c, offset, zone)) == Some(Fields(
      c.weekday, c.month, c.day, c.year, c.hours, c.minutes, c.seconds, east, zone))
  {
    InterpretTokensWithSucceeds(c, offset, east, zone);
    var r := Interpret(TokensWith(c, offset, zone));
    DayOfTokensWith(c, offset, zone);
    YearOfTokensWith(c, offset, zone);
    TimeOfTokensWith(c, offset, zone);
    ZoneOfTokensWith(c, offset, zone);
    assert r.value == Fields(c.weekday, c.month, c.day, c.year, c.hours, c.minutes, c.seconds,
      east, zone);
    assert r == Some(r.value);
  }

  /** The round trip for any offset text that reads back and holds no
      space, and any zone label. */
  lemma RoundTripWith(c: Clock, offset: string, east: int, zone: string)
    requires ' ' !in c.weekday && ' ' !in c.month && ' ' !in offset
    requires ParseOffset(offset) == Some(east)
    ensures ParseTimestamp(Untokenize(TokensWith(c, offset, zone))) == Some(Fields(
      c.weekday, c.month, c.day, c.year, c.hours, c.minutes, c.seconds, east, zone))
  {
    TokenizeUntokenize(TokensWith(c, offset, zone));
    InterpretTokensWith(c, offset, east, zone);
  }

  /** The round trip for the offset text of any `getTimezoneOffset()`
      value and any zone label. */
  lemma RoundTripBehind(c: Clock, behind: int, zone: string)
    requires ' ' !in c.weekday && ' ' !in c.month
    ensures ParseTimestamp(Untokenize(TokensWith(c, OffsetText(behind), zone))) == Some(Fields(
      c.weekday, c.month, c.day, c.year, c.hours, c.minutes, c.seconds, -behind, zone))
  {
    OffsetRoundTrip(behind);
    RoundTripWith(c, OffsetText(behind), -behind, zone);
  }

  /** Everything the timestamp carries can be read back: the day, the
      year, the time of day, the offset east of UTC (the negated
      `getTimezoneOffset`) and the zone label — provided the locale's
      weekday and month names contain no space. */
  lemma FormattedTimestampRoundTrip(c: Clock)
    requires ' ' !in c.weekday && ' ' !in c.month
    ensures ParseTimestamp(FormattedTimestamp(c)) == Some(Fields(
      c.weekday, c.month, c.day, c.year, c.hours, c.minutes, c.seconds,
      -c.tzOffset, TzLabel(c.longName)))
  {
    RoundTripBehind(c, c.tzOffset, TzLabel(c.longName));
  }
}
